=== FILE: README.md ===
# MemeGenerator core in Dafny

A functional model of the two pure-logic parts of MemeGenerator.

**The quote engine.**
- `QuoteModel`, which normalises a quote body's double quotes and renders a quote as `repr` and `str`.
- The extension check `can_ingest`.
- The four format ingestors (text, docx, PDF, CSV). Each turns already-decoded file content into an ordered list of quotes, or fails with the exception message the source raises.
- The `Ingestor` dispatcher. It hands a path to the first ingestor, in the order CSV, docx, PDF, text, that accepts it, and returns nothing when none does.

**The meme engine's layout arithmetic.**
- The resized image size.
- The caption `text - author`.
- Its greedy word wrap `get_wrapped_text`.
- The output path `<output_dir>/<n>.png`.

Modules, one per file:

| module | file | what it holds |
|---|---|---|
| `Outcomes` | `outcomes.dfy` | `Option` and `Result` |
| `Strings` | `strings.dfy` | Python's `strip`, `split(sep)`, `join`, `str.isspace`, `str(n)` |
| `Words` | `words.dfy` | Python's argument-less `str.split()` |
| `Paths` | `paths.dfy` | POSIX `pathlib`: parsing, `name`, `suffix`, `parent`, `joinpath` |
| `QuoteModel` | `quote_model.dfy` | the quote value |
| `IngestorInterface` | `ingestor_interface.dfy` | the extension check |
| `QuoteLines` | `quote_lines.dfy` | trimming, blank-line skipping and `" - "` splitting, shared by the text, PDF and docx ingestors |
| `TextIngestor`, `DocxIngestor`, `PdfIngestor`, `CsvIngestor` | one file each | the four ingestors |
| `Ingestor` | `ingestor.dfy` | the dispatcher |
| `MemeEngine` | `meme_engine.dfy` | resize, caption, wrap and output path |

Python exceptions are modelled as `Result.Failure(message)`, where the message is the text `str(e)` would give. The dispatcher's fall-through `None` is modelled as `Option.None`.

Files that are read line by line are modelled as a `LineStream`: the lines delivered before the reader stopped, plus the error it stopped with, if any. This keeps the source's order of failures: a malformed line raises before a later decoding error can.

The docx reader and the CSV reader are modelled as a `Result` of the paragraphs, or of the data rows. The `pdftotext` run is modelled as an `Extraction`: the line stream of the temporary file, plus the error of removing that file, if any.

Integers are unbounded. The random numbers of the temporary and output names are parameters bounded as `random.randint` bounds them. The font's `getlength` is modelled as a function parameter `measure: string -> nat`, and the line length as an integer `limit`.

The round-trip lemmas are about printable quotes: quotes built by `QuoteModel` that have no `" - "`, no `\n` and no `\r` in the body or the author, and an author that does not end in whitespace. A line break inside a quote would make the file reader deliver its `str` as two lines, and the read would fail.

Notes on the source's behaviour, which the model keeps:
- The resized height is truncated toward zero by `int()`, not rounded.
- A line with more than two `" - "` pieces is not an error; the pieces after the second are dropped.
- The docx ingestor's split error is not wrapped with its read-error prefix, because the split runs outside the `try`.

## Model

| member | source | states |
|---|---|---|
| QuoteModel.MakeQuote | QuoteEngine/QuoteModel.py:3-12 | the stored body starts and ends with `"` and has no further `"` just inside either end; a body without `"` at its ends is wrapped as `"body"` unchanged; the author is kept as given |
| QuoteModel.MakeQuoteKeepsText | QuoteEngine/QuoteModel.py:10-11 | the text between the new quotes is a contiguous slice of the given body, and only `"` characters were cut from its two ends |
| QuoteModel.NormalisedFixed | QuoteEngine/QuoteModel.py:10-12 | building a quote from a built quote's body and author gives that quote back |
| QuoteModel.QuoteIdempotent | QuoteEngine/QuoteModel.py:10-11 | quoting is idempotent: existing `"` never pile up |
| QuoteModel.Repr | QuoteEngine/QuoteModel.py:20 | `repr` is `<`, the body, `, `, the author, `>`, laid out position by position |
| QuoteModel.ReprSplit | QuoteEngine/QuoteModel.py:20 | splitting the text inside the angle brackets of `repr` on `, ` gives back the body and the author when neither contains `, ` |
| QuoteModel.Str | QuoteEngine/QuoteModel.py:27 | `str` holds the body, then the separator `" - "` at the body's length, then the author |
| QuoteModel.StrSplit | QuoteEngine/QuoteModel.py:27 | splitting `str(q)` on `" - "` gives back exactly the body and the author when neither contains the separator, and rebuilding the quote from those pieces gives `q` |
| IngestorInterface.Extension | QuoteEngine/IngestorInterface.py:31 | the extension is the text after the last `.`, and it is the whole path when the path has no `.` |
| IngestorInterface.CanIngest | QuoteEngine/IngestorInterface.py:24-32 | a path is accepted exactly when some allowed extension is the text after its last `.` |
| IngestorInterface.BaseAcceptsNothing | QuoteEngine/IngestorInterface.py:21-32 | the base class's empty extension list accepts no path |
| IngestorInterface.ExtensionIsLastSuffix | QuoteEngine/IngestorInterface.py:31 | only the final suffix counts, so `a.txt.pdf` has the extension `pdf` |
| IngestorInterface.AcceptsByExtension | QuoteEngine/IngestorInterface.py:31-32 | `stem.ext` is accepted exactly when `ext` is in the list, whatever the stem holds |
| IngestorInterface.TrailingDotRejected | QuoteEngine/IngestorInterface.py:31-32 | a path ending in `.` has the empty extension, and no list of non-empty extensions accepts it |
| IngestorInterface.CaseSensitive | QuoteEngine/IngestorInterface.py:32 | `TXT` is rejected by `['txt']`, while `txt` is accepted |
| QuoteLines.Trimmed | QuoteEngine/TextIngestor.py:29 | `line.strip('\n\r').strip()` is empty, or has no whitespace at either end |
| QuoteLines.ContentLinesAppend | QuoteEngine/TextIngestor.py:28-30 | blank-line skipping works line by line: two runs of lines keep their content lines, in order |
| QuoteLines.ContentLines | QuoteEngine/TextIngestor.py:28-30 | the kept lines are at most as many as the file's lines, and each is non-empty with no whitespace at either end |
| QuoteLines.ContentLinesSingle | QuoteEngine/TextIngestor.py:29-30 | a line is kept, in trimmed form, exactly when trimming leaves something |
| QuoteLines.QuoteOfEntry | QuoteEngine/TextIngestor.py:31-32 | an entry gives a quote exactly when it contains `" - "`, and fails with `list index out of range` otherwise |
| QuoteLines.QuoteOfEntryParts | QuoteEngine/TextIngestor.py:31-32 | the body is the text before the first separator and the author is the next piece; pieces after a second separator are dropped |
| QuoteLines.QuoteOfStr | QuoteEngine/TextIngestor.py:31-32 | an entry that is `str(q)` of a quote without the separator parses back into `q` |
| QuoteLines.EntryQuotesCons | QuoteEngine/TextIngestor.py:31-32 | the first entry's quote in front of the others' quotes gives every entry its own quote, at its own position |
| QuoteLines.QuotesOf | QuoteEngine/TextIngestor.py:28-32 | on success there is one quote per entry, in order, each the entry's own quote; a failure is the index error |
| QuoteLines.QuotesOfSucceeds | QuoteEngine/TextIngestor.py:31-32 | the entries parse exactly when every one of them contains the separator |
| QuoteLines.ReadQuotes | QuoteEngine/TextIngestor.py:26-32 | a malformed content line fails the loop before a later read error; otherwise a read error fails it, and with neither the quotes of the content lines are returned |
| QuoteLines.MalformedLineFails | QuoteEngine/TextIngestor.py:28-32 | a content line without `" - "` fails the loop with the index error wherever it stands, before any later read error |
| QuoteLines.TrimmedLine | QuoteEngine/TextIngestor.py:29 | trimming the written line of a printable quote gives back its `str` |
| QuoteLines.ContentOfQuoteFile | QuoteEngine/TextIngestor.py:28-30 | the content lines of a file of printable quotes, one `str` per line, are their `str`s; no quote holds a line break, so each `str` is one whole line |
| QuoteLines.QuotesOfStrs | QuoteEngine/DocxIngestor.py:33-36 | the `str`s of quotes without the separator parse back into those quotes, in order |
| QuoteLines.ReadBackQuotes | QuoteEngine/TextIngestor.py:26-36 | a file holding printable quotes, one `str` per line, reads back as those quotes; a printable quote has no line break in its body or author |
| QuoteLines.BlankLines | QuoteEngine/TextIngestor.py:25-36 | lines that all trim to nothing give no content lines and no quotes, without an error |
| TextIngestor.Parse | QuoteEngine/TextIngestor.py:22-36 | a path without the `txt` extension fails with `File extension is not of type txt` before anything is read; a read or split failure is wrapped as `Error reading text file: …`; when the loop succeeds its quotes are returned, one per content line |
| TextIngestor.MissingSeparatorFails | QuoteEngine/TextIngestor.py:26-34 | a non-blank line without `" - "` fails the parse with the wrapped index error, wherever it stands, whatever lines surround it and whatever read error comes later |
| TextIngestor.BlankFile | QuoteEngine/TextIngestor.py:25-36 | an empty or all-blank file gives an empty list, not an error |
| TextIngestor.RoundTrip | QuoteEngine/TextIngestor.py:22-36 | a `.txt` file of printable quotes, one `str` per line, parses back into them; a printable quote has no line break in its body or author |
| DocxIngestor.NonEmptyParagraphs | QuoteEngine/DocxIngestor.py:33-34 | the kept paragraphs are non-empty paragraphs of the document, untrimmed; when no paragraph is `''`, all are kept |
| DocxIngestor.NonEmptyParagraphsAppend | QuoteEngine/DocxIngestor.py:33-34 | the filter works paragraph by paragraph: two runs of paragraphs keep their non-empty paragraphs, in order |
| DocxIngestor.NonEmptyParagraphsSingle | QuoteEngine/DocxIngestor.py:34 | a paragraph is kept, untrimmed, exactly when its text is not `''` |
| DocxIngestor.MissingSeparatorFails | QuoteEngine/DocxIngestor.py:32-36 | a non-empty paragraph without `' - '` anywhere in the document fails the parse with the bare index error |
| DocxIngestor.Parse | QuoteEngine/DocxIngestor.py:24-38 | a non-`docx` path fails with `File extension is not of type docx.`; a reader failure is wrapped as `Error reading DocX file: …`; otherwise the result is the quotes of the non-empty paragraphs, with any split error unwrapped |
| DocxIngestor.BlankParagraphFails | QuoteEngine/DocxIngestor.py:33-36 | a whitespace-only paragraph anywhere in the document is not skipped, and fails the parse with the bare index error |
| DocxIngestor.EmptyDocument | QuoteEngine/DocxIngestor.py:27-38 | a document without non-empty paragraphs gives an empty list |
| DocxIngestor.RoundTrip | QuoteEngine/DocxIngestor.py:33-36 | paragraphs holding the `str`s of quotes without the separator parse back into those quotes |
| PdfIngestor.TempPath | QuoteEngine/PDFIngestor.py:31-32 | the temporary file lies in the input file's directory and is named `<n>.txt` |
| PdfIngestor.TempPathSuffix | QuoteEngine/PDFIngestor.py:32 | the temporary file's suffix is `.txt` |
| PdfIngestor.TempPathInjective | QuoteEngine/PDFIngestor.py:32 | two draws name the same temporary file only when they drew the same number |
| PdfIngestor.Parse | QuoteEngine/PDFIngestor.py:27-46 | a non-`pdf` path fails with `File extension is not of type pdf` before extraction; an extraction, read, split or removal failure is wrapped as `Error running subprocess pdftotext: …`; otherwise the result is the quotes of the content lines |
| PdfIngestor.RoundTrip | QuoteEngine/PDFIngestor.py:34-42 | extracted text of printable quotes, one `str` per line, parses back into them; a printable quote has no line break in its body or author |
| PdfIngestor.MissingSeparatorWrapped | QuoteEngine/PDFIngestor.py:34-44 | a non-blank extracted line without `" - "` fails with the pdftotext prefix in front of the index error, wherever it stands, whatever read error comes later and whether or not the removal fails too |
| CsvIngestor.QuotesOfRows | QuoteEngine/CSVIngestor.py:33-34 | there is one quote per row, in order, built from column 0 as the body and column 1 as the author |
| CsvIngestor.Parse | QuoteEngine/CSVIngestor.py:24-36 | a non-`csv` path fails with `File extension is not of type csv`; a reader failure is wrapped as `Error reading CSV file: …`; otherwise there is one quote per data row, each keeping its author |
| CsvIngestor.RoundTrip | QuoteEngine/CSVIngestor.py:33-34 | the rows of built quotes read back as those quotes |
| CsvIngestor.NoRows | QuoteEngine/CSVIngestor.py:27-36 | a table without data rows gives an empty list |
| Ingestor.ParseWith | QuoteEngine/Ingestor.py:38 | each ingestor refuses a path it does not accept with its own wrong-type message, so it succeeds only on a path it accepts |
| Ingestor.FirstAccepting | QuoteEngine/Ingestor.py:36-37 | the position found is that of an ingestor that accepts the path, with no accepting one before it |
| Ingestor.FirstMatch | QuoteEngine/Ingestor.py:36-38 | the loop returns nothing exactly when no ingestor accepts the path, and otherwise returns the first accepting ingestor's result |
| Ingestor.Owner | QuoteEngine/Ingestor.py:23-24 | the owner accepts the path; when there is no owner, no ingestor accepts it |
| Ingestor.AcceptsOnlyItsExtension | QuoteEngine/Ingestor.py:23-24 | each ingestor accepts a path exactly when the path's extension is its single extension |
| Ingestor.ExtensionsDisjoint | QuoteEngine/Ingestor.py:23-24 | no path is accepted by two ingestors |
| Ingestor.FirstMatchIsOwner | QuoteEngine/Ingestor.py:36-38 | any order listing every ingestor gives the owner's result, or nothing when the path has no owner |
| Ingestor.ParseByOwner | QuoteEngine/Ingestor.py:23-38 | the dispatcher returns the owning ingestor's result unchanged, errors included, and nothing for a path that no ingestor owns |
| Ingestor.OrderIrrelevant | QuoteEngine/Ingestor.py:23-24 | reordering the ingestors never changes the result |
| Ingestor.UnsupportedGivesNothing | tests/test_ingestor.py:28-30 | a `.json` path gives nothing rather than an error |
| Ingestor.DispatchByExtension | QuoteEngine/Ingestor.py:36-38 | a path ending in an ingestor's extension gets that ingestor's result, whatever comes before the extension |
| MemeEngine.TruncDiv | MemeEngine/MemeEngine.py:47 | `int()` of an exact quotient truncates toward zero: the quotient is bounded from below for non-negative dividends and from above for negative ones |
| MemeEngine.ResizedSize | MemeEngine/MemeEngine.py:46-48 | a zero-width image fails with `division by zero`; otherwise the width is the requested one and the height is the old height scaled by the same ratio, truncated toward zero |
| MemeEngine.ResizeToSameWidth | MemeEngine/MemeEngine.py:46-47 | resizing to the image's own width keeps its size |
| MemeEngine.Caption | MemeEngine/MemeEngine.py:56 | the caption's words are the text's words, a lone `-`, then the author's words |
| MemeEngine.CaptionOfQuote | MemeEngine/MemeEngine.py:56 | the caption of a quote's body and author is the quote's `str` |
| MemeEngine.OutputDir | MemeEngine/MemeEngine.py:27 | the output directory is a normalised path whose components are the given string's `/`-separated pieces, in order, without the empty and `.` ones; it is absolute exactly when the string starts with `/` |
| MemeEngine.OutPath | MemeEngine/MemeEngine.py:66-67 | the output file lies directly in the output directory and is named `<n>.png` |
| MemeEngine.OutPathSuffix | tests/test_memeEngine.py:19-27 | the output file's suffix is `.png` |
| MemeEngine.OutPathInjective | MemeEngine/MemeEngine.py:66-67 | two draws name the same output file only when they drew the same number |
| MemeEngine.Tentative | MemeEngine/MemeEngine.py:93 | the tentative line has no whitespace at either end; the first word of a line stands alone, and a later word follows the line after a single space |
| MemeEngine.WrapLines | MemeEngine/MemeEngine.py:90-100 | the loop ends with at least one line, and at most one more line than there are words |
| MemeEngine.WrapGroupsGreedy | MemeEngine/MemeEngine.py:90-100 | the wrap's groups hold the words in order; only the first is empty; each fits, holds one word, or is the initial empty line; no group could have taken the first word of the next; the first group is empty exactly when there are no words or the first word alone is too long |
| MemeEngine.WrapLinesAreGroups | MemeEngine/MemeEngine.py:93-100 | each line the loop builds is its group of words joined by single spaces |
| MemeEngine.GetWrappedText | MemeEngine/MemeEngine.py:90-101 | wrapping loses, adds and reorders no word, and splitting the result on line breaks gives exactly the lines the loop built |
| MemeEngine.WrapIdempotent | MemeEngine/MemeEngine.py:91-101 | wrapping wrapped text with the same measure and limit changes nothing |
| MemeEngine.WrapBlank | MemeEngine/MemeEngine.py:90-101 | empty or whitespace-only text wraps to `''` |
| MemeEngine.WrappedLines | MemeEngine/MemeEngine.py:90-101 | every output line fits, or is a single word, or is the initial empty line; no line could have taken the first word of the next line; the result starts with an empty line exactly when there are no words or the first word alone is too long |
| Words.SplitWords | MemeEngine/MemeEngine.py:91 | `str.split()` gives non-empty pieces without whitespace that hold exactly the non-whitespace characters, in order |
| Words.SplitWordsJoinWords | MemeEngine/MemeEngine.py:101 | words joined by a whitespace character split back into the same words |
| Words.SplitWordsEmpty | MemeEngine/MemeEngine.py:91 | a string has no words exactly when it is all whitespace |
| Strings.Strip | QuoteEngine/QuoteModel.py:10 | `strip(chars)` leaves no stripped character at either end, and leaves a string without one at its ends unchanged |
| Strings.StripIsSlice | QuoteEngine/QuoteModel.py:10 | `strip(chars)` keeps a contiguous slice, and removes only stripped characters and only from the two ends |
| Strings.Split | QuoteEngine/TextIngestor.py:31 | `s.split(sep)` gives at least one piece, and no piece contains `sep` |
| Strings.SplitFirst | QuoteEngine/TextIngestor.py:31 | there are two or more pieces exactly when `s` contains `sep`; one piece is `s` itself; the first piece is the text before the first occurrence |
| Strings.Join | MemeEngine/MemeEngine.py:101 | `sep.join(parts)` is empty for no parts, and otherwise starts with the first part and ends with the last |
| Strings.SplitCharAppend | QuoteEngine/IngestorInterface.py:31 | the pieces of `s.split(c)` for `s = a + c + b` are the pieces of `a` followed by those of `b` |
| Strings.SplitJoinChar | MemeEngine/MemeEngine.py:101 | parts without the character `c`, joined with `c` and split on `c`, come back unchanged |
| Strings.Decimal | QuoteEngine/PDFIngestor.py:32 | `str(n)` is at least one decimal digit, with no leading zero when `n` has more than one digit |
| Strings.DecimalRoundTrip | MemeEngine/MemeEngine.py:66 | reading the digits of `str(n)` back as a number gives `n` |
| Strings.DecimalInjective | MemeEngine/MemeEngine.py:66 | two numbers have the same `str` only when they are equal |
| Strings.JoinSplit | MemeEngine/MemeEngine.py:101 | joining the pieces of a split with the same separator gives the string back |
| Paths.FromString | MemeEngine/MemeEngine.py:27 | a parsed path has no empty, `.` or slashed components, and is absolute exactly when the string starts with `/`; a string without `/` is one component, or none when it is empty or `.` |
| Paths.FromStringAppend | MemeEngine/MemeEngine.py:27 | the components of `a/b` are those of `a` followed by those of `b`, and `a/b` is absolute exactly when `a` is absolute or empty; with the single-piece case this fixes the components of every string |
| Paths.ComponentsAppend | MemeEngine/MemeEngine.py:27 | dropping the empty and `.` pieces works piece by piece, keeping the order |
| Paths.Parent | QuoteEngine/PDFIngestor.py:31-32 | `path.parent` keeps absoluteness and drops exactly the last component; the root and the empty path are their own parents |
| Paths.JoinPath | MemeEngine/MemeEngine.py:67 | `joinpath` of an absolute path replaces the base; a relative one appends its components |
| Paths.Suffix | tests/test_memeEngine.py:27 | the suffix is empty, or is the end of the name from its last `.` on, with that dot neither first nor last |
| Paths.RenderRoundTrip | MemeEngine/MemeEngine.py:27 | parsing the string of a normalised path gives the path back |

## Left out

- File reading and decoding are not modelled: `open` with `utf-8-sig` (byte-order mark handling), `python-docx`'s `Document`, `pandas.read_csv` and the `pdftotext` subprocess. Their results enter as the `LineStream`, paragraph, row and `Extraction` parameters.
- `os.remove` of the PDF temporary file is modelled only as its optional error. The file that an earlier failure leaves behind is not modelled.
- Pillow is not modelled: opening the image, resampling its pixels, loading the font, drawing the text and saving the PNG. Only the target size computed at MemeEngine.py:46-47 is modelled.
- The random anchor position, and the float line length `(im.width - text_x) * 0.8`, are not modelled. The wrap takes the line length as a parameter.
- `random.randint` is not modelled. The number drawn for a file name is a parameter within the same bounds.
- `MemeEngine.ResizedSize`: the height is the exact rational `height * width / old_width`, truncated. The source computes `width / im.width` in double precision first, and whenever that double product falls just short of a whole number the truncated height is one lower than the model's: a 531 by 531 image at width 500 gets height 499 in the source and 500 here.
- `MemeEngine.GetWrappedText`: the font's `getlength` returns a float. Here it is any function from strings to natural numbers, and the line length is an integer.
- `MemeEngine.ResizedSize`: Pillow's rejection of a non-positive target size is not modelled. A zero or negative width yields a size, as the arithmetic does.
- `CsvIngestor.Parse`: pandas can deliver non-string cells (numbers, `NaN`) and frames with fewer than two columns. The model takes every data row as two strings, so the `IndexError` of a one-column frame is not modelled.
- `Paths.FromString`: POSIX's special leading `//` is treated like `/`. Windows paths are not modelled.
- `Strings.IsSpace` lists the characters Python's `str.isspace` accepts by code point. Python builds that set from the Unicode database, which is not modelled.
- `Ingestor.Parse` is the dispatcher itself and carries no contract of its own. Its behaviour is stated by `Ingestor.ParseByOwner`, `Ingestor.FirstMatch` and `Ingestor.DispatchByExtension`.

=== FILE: csv_ingestor.dfy ===
/** `CSVIngestor.parse`: a `.csv` table, one quote per data row, the first column
    as body and the second as author. */
module CsvIngestor {
  import opened Outcomes
  import opened IngestorInterface
  import opened QuoteModel

  const AllowedExtensions: seq<string> := ["csv"]
  const WrongTypeMessage: string := "File extension is not of type csv"
  const ReadErrorPrefix: string := "Error reading CSV file: "

  /** A data row's first two cells. */
  type Row = (string, string)

  /** One quote per row, in row order. */
  function QuotesOfRows(rows: seq<Row>): (qs: seq<Quote>)
    ensures |qs| == |rows|
    ensures forall i :: 0 <= i < |rows| ==> qs[i] == MakeQuote(rows[i].0, rows[i].1)
  {
    if rows == [] then [] else [MakeQuote(rows[0].0, rows[0].1)] + QuotesOfRows(rows[1..])
  }

  /** Parses the data rows the CSV reader delivers for `path`, the header row
      already consumed by the reader. */
  function Parse(path: string, table: Result<seq<Row>>): (r: Result<seq<Quote>>)
    ensures !CanIngest(path, AllowedExtensions) ==> r == Failure(WrongTypeMessage)
    ensures CanIngest(path, AllowedExtensions) && table.Failure? ==>
      r == Failure(ReadErrorPrefix + table.error)
    ensures CanIngest(path, AllowedExtensions) && table.Success? ==>
      r.Success? && |r.value| == |table.value|
      && forall i :: 0 <= i < |table.value| ==>
           r.value[i].author == table.value[i].1
           && r.value[i] == MakeQuote(table.value[i].0, table.value[i].1)
  {
    if !CanIngest(path, AllowedExtensions) then Failure(WrongTypeMessage)
    else
      match table
      case Failure(e) => Failure(ReadErrorPrefix + e)
      case Success(rows) => Success(QuotesOfRows(rows))
  }

  /** The rows of a table written from quotes built by `QuoteModel` read back as those quotes. */
  lemma RoundTrip(stem: string, qs: seq<Quote>)
    requires forall i :: 0 <= i < |qs| ==> Normalised(qs[i])
    ensures var rows := seq(|qs|, i requires 0 <= i < |qs| => (qs[i].body, qs[i].author));
      Parse(stem + "." + "csv", Success(rows)) == Success(qs)
  {
    AcceptsByExtension(stem, "csv", AllowedExtensions);
    var rows := seq(|qs|, i requires 0 <= i < |qs| => (qs[i].body, qs[i].author));
    forall i | 0 <= i < |qs|
      ensures MakeQuote(rows[i].0, rows[i].1) == qs[i]
    {
      NormalisedFixed(qs[i]);
    }
    assert QuotesOfRows(rows) == qs;
  }

  /** A table without data rows gives no quotes. */
  lemma NoRows(stem: string)
    ensures Parse(stem + "." + "csv", Success([])) == Success([])
  {
    AcceptsByExtension(stem, "csv", AllowedExtensions);
  }
}

=== FILE: docx_ingestor.dfy ===
/** `DocxIngestor.parse`: a `.docx` document, one quote per non-empty paragraph. */
module DocxIngestor {
  import opened Outcomes
  import opened Strings
  import opened IngestorInterface
  import opened QuoteModel
  import opened QuoteLines

  const AllowedExtensions: seq<string> := ["docx"]
  const WrongTypeMessage: string := "File extension is not of type docx."
  const ReadErrorPrefix: string := "Error reading DocX file: "

  /** The paragraphs whose text is not exactly empty, untrimmed, in order. */
  function NonEmptyParagraphs(paras: seq<string>): (r: seq<string>)
    ensures |r| <= |paras|
    ensures forall i :: 0 <= i < |r| ==> r[i] != [] && r[i] in paras
    ensures (forall i :: 0 <= i < |paras| ==> paras[i] != []) ==> r == paras
  {
    if paras == [] then []
    else
      var rest := NonEmptyParagraphs(paras[1..]);
      assert forall i :: 0 <= i < |rest| ==> rest[i] in paras by {
        assert forall p :: p in paras[1..] ==> p in paras;
      }
      if paras[0] == [] then rest
      else
        assert paras == [paras[0]] + paras[1..];
        [paras[0]] + rest
  }

  /** Parses the paragraphs the document reader delivers for `path`. Only opening
      the document is guarded: a paragraph without the separator fails with the
      bare index error, not with the read-error prefix. */
  function Parse(path: string, doc: Result<seq<string>>): (r: Result<seq<Quote>>)
    ensures !CanIngest(path, AllowedExtensions) ==> r == Failure(WrongTypeMessage)
    ensures CanIngest(path, AllowedExtensions) && doc.Failure? ==>
      r == Failure(ReadErrorPrefix + doc.error)
    ensures CanIngest(path, AllowedExtensions) && doc.Success? ==>
      r == QuotesOf(NonEmptyParagraphs(doc.value))
  {
    if !CanIngest(path, AllowedExtensions) then Failure(WrongTypeMessage)
    else
      match doc
      case Failure(e) => Failure(ReadErrorPrefix + e)
      case Success(paras) => QuotesOf(NonEmptyParagraphs(paras))
  }

  /** The filter works paragraph by paragraph: two runs of paragraphs keep their
      non-empty paragraphs, in order. */
  lemma {:induction false} NonEmptyParagraphsAppend(a: seq<string>, b: seq<string>)
    ensures NonEmptyParagraphs(a + b) == NonEmptyParagraphs(a) + NonEmptyParagraphs(b)
    decreases |a|
  {
    if a == [] {
      assert a + b == b;
    } else {
      assert (a + b)[0] == a[0];
      assert (a + b)[1..] == a[1..] + b;
      NonEmptyParagraphsAppend(a[1..], b);
    }
  }

  /** A paragraph is kept, untrimmed, exactly when its text is not `''`. */
  lemma NonEmptyParagraphsSingle(p: string)
    ensures p == [] ==> NonEmptyParagraphs([p]) == []
    ensures p != [] ==> NonEmptyParagraphs([p]) == [p]
  {
    assert [p][1..] == [];
  }

  /** A non-empty paragraph without the separator fails the parse with the bare
      index error, wherever it stands in the document. */
  lemma MissingSeparatorFails(stem: string, paras: seq<string>, i: nat)
    requires i < |paras| && paras[i] != [] && !Contains(paras[i], Separator)
    ensures Parse(stem + "." + "docx", Success(paras)) == Failure(IndexErrorMessage)
  {
    AcceptsByExtension(stem, "docx", AllowedExtensions);
    var before, p, after := paras[..i], paras[i], paras[i + 1..];
    assert paras == before + [p] + after;
    NonEmptyParagraphsAppend(before + [p], after);
    NonEmptyParagraphsAppend(before, [p]);
    NonEmptyParagraphsSingle(p);
    var kept := NonEmptyParagraphs(paras);
    assert kept[|NonEmptyParagraphs(before)|] == p;
    QuotesOfSucceeds(kept);
  }

  /** A whitespace-only paragraph is not skipped: it has no separator and fails the
      parse with the unwrapped index error. */
  lemma BlankParagraphFails(stem: string, paras: seq<string>, i: nat)
    requires i < |paras| && paras[i] != []
    requires forall k :: 0 <= k < |paras[i]| ==> IsSpace(paras[i][k])
    ensures Parse(stem + "." + "docx", Success(paras)) == Failure(IndexErrorMessage)
  {
    var p := paras[i];
    assert !Contains(p, Separator) by {
      forall j | 0 <= j <= |p|
        ensures !OccursAt(p, Separator, j)
      {
        if j + |Separator| <= |p| {
          assert IsSpace(p[j + 1]) && !IsSpace(Separator[1]);
        }
      }
    }
    MissingSeparatorFails(stem, paras, i);
  }

  /** A document without non-empty paragraphs gives no quotes. */
  lemma EmptyDocument(stem: string, paras: seq<string>)
    requires forall i :: 0 <= i < |paras| ==> paras[i] == []
    ensures Parse(stem + "." + "docx", Success(paras)) == Success([])
  {
    AcceptsByExtension(stem, "docx", AllowedExtensions);
    assert forall p :: p in paras ==> p == [];
  }

  /** Paragraphs holding the `str` of quotes without the separator parse back into them. */
  lemma RoundTrip(stem: string, qs: seq<Quote>)
    requires forall i :: 0 <= i < |qs| ==> Parsable(qs[i])
    ensures Parse(stem + "." + "docx", Success(Strs(qs))) == Success(qs)
  {
    AcceptsByExtension(stem, "docx", AllowedExtensions);
    StrsNonEmpty(qs);
    QuotesOfStrs(qs);
  }
}

=== FILE: ingestor.dfy ===
/** `Ingestor.parse`: hands a path to the first ingestor, in a fixed order, whose
    extension check accepts it, and returns nothing when none does. */
module Ingestor {
  import opened Outcomes
  import opened IngestorInterface
  import opened QuoteModel
  import opened QuoteLines
  import CsvIngestor
  import DocxIngestor
  import PdfIngestor
  import TextIngestor

  /** The four format ingestors. */
  datatype Kind = Csv | Docx | Pdf | Text

  /** `Ingestor.ingestors`, in the order they are tried. */
  const Ingestors: seq<Kind> := [Csv, Docx, Pdf, Text]

  /** Each ingestor's `allowed_extensions`. */
  function AllowedExtensions(k: Kind): (exts: seq<string>)
    ensures |exts| == 1 && '.' !in exts[0]
  {
    match k
    case Csv => CsvIngestor.AllowedExtensions
    case Docx => DocxIngestor.AllowedExtensions
    case Pdf => PdfIngestor.AllowedExtensions
    case Text => TextIngestor.AllowedExtensions
  }

  /** What each ingestor would read from the file, were it to read it. */
  datatype Sources = Sources(
    table: Result<seq<CsvIngestor.Row>>,
    doc: Result<seq<string>>,
    pdf: PdfIngestor.Extraction,
    text: LineStream)

  /** The message each ingestor raises for a path with another extension. */
  function WrongTypeMessage(k: Kind): string
  {
    match k
    case Csv => CsvIngestor.WrongTypeMessage
    case Docx => DocxIngestor.WrongTypeMessage
    case Pdf => PdfIngestor.WrongTypeMessage
    case Text => TextIngestor.WrongTypeMessage
  }

  /** `ingestor.parse(path)` for the ingestor of kind `k`: every ingestor refuses a
      path it does not accept with its own message, before it reads anything, so a
      success is only ever for a path it accepts. */
  function ParseWith(k: Kind, path: string, src: Sources): (r: Result<seq<Quote>>)
    ensures !CanIngest(path, AllowedExtensions(k)) ==> r == Failure(WrongTypeMessage(k))
    ensures r.Success? ==> CanIngest(path, AllowedExtensions(k))
  {
    match k
    case Csv => CsvIngestor.Parse(path, src.table)
    case Docx => DocxIngestor.Parse(path, src.doc)
    case Pdf => PdfIngestor.Parse(path, src.pdf)
    case Text => TextIngestor.Parse(path, src.text)
  }

  /** The position of the first ingestor in `order` that accepts `path`, or
      `|order|` when none does. */
  function FirstAccepting(order: seq<Kind>, path: string): (i: nat)
    ensures i <= |order|
    ensures i < |order| ==> CanIngest(path, AllowedExtensions(order[i]))
    ensures forall j :: 0 <= j < i ==> !CanIngest(path, AllowedExtensions(order[j]))
    decreases |order|
  {
    if order == [] then 0
    else if CanIngest(path, AllowedExtensions(order[0])) then 0
    else
      var i := FirstAccepting(order[1..], path);
      assert forall j :: 1 <= j < i + 1 ==> order[j] == order[1..][j - 1];
      1 + i
  }

  /** The loop over `order`: the result of the first ingestor that accepts `path`,
      or nothing when none does. */
  function FirstMatch(order: seq<Kind>, path: string, src: Sources): (r: Option<Result<seq<Quote>>>)
    ensures var i := FirstAccepting(order, path);
      && (r.None? <==> i == |order|)
      && (r.Some? ==> i < |order| && r.value == ParseWith(order[i], path, src))
    decreases |order|
  {
    if order == [] then None
    else if CanIngest(path, AllowedExtensions(order[0])) then
      Some(ParseWith(order[0], path, src))
    else
      FirstMatch(order[1..], path, src)
  }

  /** `Ingestor.parse(path)`; `None` is the method falling off its loop. */
  function Parse(path: string, src: Sources): Option<Result<seq<Quote>>>
  {
    FirstMatch(Ingestors, path, src)
  }

  /** The ingestor whose extension is the path's, if any. */
  function Owner(path: string): (k: Option<Kind>)
    ensures k.Some? ==> CanIngest(path, AllowedExtensions(k.value))
    ensures k.None? ==> forall k' :: !CanIngest(path, AllowedExtensions(k'))
  {
    var ext := Extension(path);
    if ext == "csv" then Some(Csv)
    else if ext == "docx" then Some(Docx)
    else if ext == "pdf" then Some(Pdf)
    else if ext == "txt" then Some(Text)
    else
      assert forall k' :: !CanIngest(path, AllowedExtensions(k')) by {
        forall k' ensures !CanIngest(path, AllowedExtensions(k')) {
          AcceptsOnlyItsExtension(path, k');
        }
      }
      None
  }

  /** An ingestor accepts a path exactly when its one extension is the path's. */
  lemma AcceptsOnlyItsExtension(path: string, k: Kind)
    ensures CanIngest(path, AllowedExtensions(k)) <==> Extension(path) == AllowedExtensions(k)[0]
  {
  }

  /** No path is accepted by two ingestors. */
  lemma ExtensionsDisjoint(path: string, k1: Kind, k2: Kind)
    requires CanIngest(path, AllowedExtensions(k1)) && CanIngest(path, AllowedExtensions(k2))
    ensures k1 == k2
  {
    AcceptsOnlyItsExtension(path, k1);
    AcceptsOnlyItsExtension(path, k2);
  }

  /** Any order that lists every ingestor gives the result of the path's owner,
      or nothing when it has none. */
  lemma FirstMatchIsOwner(order: seq<Kind>, path: string, src: Sources)
    requires forall k :: k in order
    ensures Owner(path).None? ==> FirstMatch(order, path, src) == None
    ensures Owner(path).Some? ==> FirstMatch(order, path, src) == Some(ParseWith(Owner(path).value, path, src))
  {
    var i := FirstAccepting(order, path);
    if Owner(path).Some? {
      var k := Owner(path).value;
      var j := IndexOf(order, k);
      assert i <= j;
      ExtensionsDisjoint(path, order[i], k);
    }
  }

  /** The position of `k` in `order`. */
  function IndexOf(order: seq<Kind>, k: Kind): (i: nat)
    requires k in order
    ensures i < |order| && order[i] == k
  {
    if order[0] == k then 0 else 1 + IndexOf(order[1..], k)
  }

  /** The dispatcher returns the owning ingestor's result unchanged, errors
      included, and nothing for a path no ingestor owns. */
  lemma ParseByOwner(path: string, src: Sources)
    ensures Owner(path).None? ==> Parse(path, src) == None
    ensures Owner(path).Some? ==> Parse(path, src) == Some(ParseWith(Owner(path).value, path, src))
  {
    AllListed();
    FirstMatchIsOwner(Ingestors, path, src);
  }

  /** The dispatcher lists every ingestor. */
  lemma AllListed()
    ensures forall k :: k in Ingestors
  {
    forall k: Kind
      ensures k in Ingestors
    {
      match k
      case Csv => assert Ingestors[0] == k;
      case Docx => assert Ingestors[1] == k;
      case Pdf => assert Ingestors[2] == k;
      case Text => assert Ingestors[3] == k;
    }
  }

  /** The order of the ingestors does not matter. */
  lemma OrderIrrelevant(order: seq<Kind>, path: string, src: Sources)
    requires forall k :: k in order
    ensures FirstMatch(order, path, src) == Parse(path, src)
  {
    FirstMatchIsOwner(order, path, src);
    ParseByOwner(path, src);
  }

  /** A `.json` file is not supported: the dispatcher returns nothing. */
  lemma UnsupportedGivesNothing(stem: string, src: Sources)
    ensures Parse(stem + "." + "json", src) == None
  {
    ExtensionIsLastSuffix(stem, "json");
    ParseByOwner(stem + "." + "json", src);
  }

  /** A path ending in an ingestor's extension goes to that ingestor, whatever
      comes before the extension. */
  lemma DispatchByExtension(stem: string, k: Kind, src: Sources)
    ensures var path := stem + "." + AllowedExtensions(k)[0];
      Parse(path, src) == Some(ParseWith(k, path, src))
  {
    var ext := AllowedExtensions(k)[0];
    var path := stem + "." + ext;
    assert '.' !in ext by {
      match k
      case Csv =>
      case Docx =>
      case Pdf =>
      case Text =>
    }
    ExtensionIsLastSuffix(stem, ext);
    AcceptsOnlyItsExtension(path, k);
    assert Owner(path).Some?;
    ExtensionsDisjoint(path, Owner(path).value, k);
    ParseByOwner(path, src);
  }
}

=== FILE: ingestor_interface.dfy ===
/** `IngestorInterface.can_ingest`: a file is accepted by the text after the last
    `.` of its path, compared exactly against a list of extensions. */
module IngestorInterface {
  import opened Strings

  /** `str(path).split('.')[-1]`: the text after the last `.`, or the whole path
      when it has no `.`. */
  function Extension(path: string): (ext: string)
    ensures IsFinalSegment(path, ext, '.')
    ensures '.' !in path ==> ext == path
  {
    var ext := AfterLast(path, '.');
    if '.' !in path then
      FinalSegmentWithout(path, '.');
      FinalSegmentUnique(path, ext, path, '.');
      ext
    else ext
  }

  /** `can_ingest(path)` against the class's `allowed_extensions`: holds exactly
      when some allowed extension is the text after the last `.` of the path. */
  function CanIngest(path: string, allowed: seq<string>): (ok: bool)
    ensures ok <==> exists e :: e in allowed && IsFinalSegment(path, e, '.')
  {
    if Extension(path) in allowed then true
    else
      forall e | e in allowed && IsFinalSegment(path, e, '.')
        ensures false
      {
        FinalSegmentUnique(path, e, Extension(path), '.');
      }
      false
  }

  /** The base class's empty `allowed_extensions`. */
  const BaseExtensions: seq<string> := []

  /** The base class accepts no path. */
  lemma BaseAcceptsNothing(path: string)
    ensures !CanIngest(path, BaseExtensions)
  {
  }

  /** Only the final suffix counts: `a.txt.pdf` has the extension `pdf`. */
  lemma ExtensionIsLastSuffix(stem: string, ext: string)
    requires '.' !in ext
    ensures Extension(stem + "." + ext) == ext
  {
    AfterLastOfSuffix(stem, '.', ext);
  }

  /** A path `stem.ext` is accepted exactly when `ext` is allowed, if `ext` has no dot. */
  lemma AcceptsByExtension(stem: string, ext: string, allowed: seq<string>)
    requires '.' !in ext
    ensures CanIngest(stem + "." + ext, allowed) <==> ext in allowed
  {
    ExtensionIsLastSuffix(stem, ext);
  }

  /** A path ending in `.` has the empty extension, which no list of non-empty
      extensions accepts. */
  lemma TrailingDotRejected(stem: string, allowed: seq<string>)
    requires forall i :: 0 <= i < |allowed| ==> allowed[i] != ""
    ensures Extension(stem + ".") == ""
    ensures !CanIngest(stem + ".", allowed)
  {
    assert stem + "." == stem + "." + "";
    ExtensionIsLastSuffix(stem, "");
  }

  /** The comparison is exact: `quotes.TXT` is not a `txt` file. */
  lemma CaseSensitive(stem: string)
    ensures !CanIngest(stem + "." + "TXT", ["txt"])
    ensures CanIngest(stem + "." + "txt", ["txt"])
  {
    AcceptsByExtension(stem, "TXT", ["txt"]);
    AcceptsByExtension(stem, "txt", ["txt"]);
  }
}

=== FILE: meme_engine.dfy ===
/** The arithmetic and text layout of `MemeEngine.make_meme`: the resized image
    size, the caption, its greedy word wrap, and the output path. */
module MemeEngine {
  import opened Outcomes
  import opened Strings
  import opened Words
  import opened Paths
  import opened QuoteModel

  /** The largest number `random.randint(0, 100000000)` draws for the output name. */
  const OutNameBound: nat := 100000000

  /** The message of the `ZeroDivisionError` that `width / im.width` raises. */
  const ZeroDivisionMessage: string := "division by zero"

  datatype Size = Size(width: int, height: int)

  /** Python's `int()` of the exact quotient `a / b`: truncation toward zero. */
  function TruncDiv(a: int, b: int): (q: int)
    requires b > 0
    ensures a >= 0 ==> q * b <= a < (q + 1) * b
    ensures a < 0 ==> (q - 1) * b < a <= q * b
  {
    if a >= 0 then a / b else -((-a) / b)
  }

  /** `(width, int(im.height * (width / im.width)))`: the new width as given and the
      height scaled by the same ratio, truncated toward zero. */
  function ResizedSize(orig: Size, width: int): (r: Result<Size>)
    requires orig.width >= 0 && orig.height >= 0
    ensures orig.width == 0 <==> r.Failure?
    ensures r.Failure? ==> r.error == ZeroDivisionMessage
    ensures r.Success? ==> r.value.width == width
    ensures r.Success? && width >= 0 ==>
      r.value.height * orig.width <= orig.height * width < (r.value.height + 1) * orig.width
    ensures r.Success? && width < 0 ==>
      (r.value.height - 1) * orig.width < orig.height * width <= r.value.height * orig.width
  {
    if orig.width == 0 then Failure(ZeroDivisionMessage)
    else Success(Size(width, TruncDiv(orig.height * width, orig.width)))
  }

  /** Resizing to the image's own width keeps its height. */
  lemma ResizeToSameWidth(orig: Size)
    requires orig.width > 0 && orig.height >= 0
    ensures ResizedSize(orig, orig.width) == Success(orig)
  {
    var h := ResizedSize(orig, orig.width).value.height;
    var w := orig.width;
    if h < orig.height {
      MulMonotone(h + 1, orig.height, w);
    } else if h > orig.height {
      MulMonotone(orig.height + 1, h, w);
    }
  }

  /** Multiplying by a positive number keeps the order. */
  lemma MulMonotone(a: int, b: int, w: int)
    requires w > 0 && a <= b
    ensures a * w <= b * w
  {
    assert b * w == a * w + (b - a) * w;
  }

  /** `f'{text} - {author}'`: its words are the text's, a lone `-`, then the author's. */
  function Caption(text: string, author: string): (c: string)
    ensures SplitWords(c) == SplitWords(text) + ["-"] + SplitWords(author)
  {
    var c := text + " - " + author;
    assert c == text + [' '] + ("-" + [' '] + author);
    WordsFromSpaceJoin(text, ' ', "-" + [' '] + author, []);
    WordsFromSpaceJoin("-", ' ', author, []);
    SplitWordsOfWord("-");
    c
  }

  /** The caption of a quote's body and author is the quote's `str`. */
  lemma CaptionOfQuote(q: Quote)
    ensures Caption(q.body, q.author) == Str(q)
  {
  }

  /** `MemeEngine(output_dir).output_dir`: the `/`-separated pieces of the given
      string, in order, without the empty and `.` ones. */
  function OutputDir(outputDir: string): (dir: PurePath)
    ensures WellFormed(dir)
    ensures dir.absolute <==> outputDir != [] && outputDir[0] == '/'
    ensures dir.parts == Components(Split(outputDir, "/"))
  {
    FromString(outputDir)
  }

  /** `output_dir.joinpath(f'{n}.png')`. */
  function OutPath(dir: PurePath, n: nat): (p: PurePath)
    requires n <= OutNameBound
    ensures Parent(p) == dir
    ensures Name(p) == Decimal(n) + "." + "png"
  {
    var name := Decimal(n) + "." + "png";
    NumberedNameIsComponent(n, "png");
    JoinComponent(dir, name);
    JoinPath(dir, name)
  }

  /** The output file has the suffix `.png`. */
  lemma OutPathSuffix(dir: PurePath, n: nat)
    requires n <= OutNameBound
    ensures Suffix(OutPath(dir, n)) == ".png"
  {
    NumberedNameSuffix(OutPath(dir, n), n, "png");
  }

  /** Two draws give the same output file only when they drew the same number. */
  lemma OutPathInjective(dir: PurePath, m: nat, n: nat)
    requires m <= OutNameBound && n <= OutNameBound
    ensures OutPath(dir, m) == OutPath(dir, n) ==> m == n
  {
    NumberedNameInjective(m, n, "png");
  }

  /** `f'{lines[-1]} {word}'.strip()`: the first word of a line stands alone, and a
      later word follows the line after a single space. */
  function Tentative(last: string, w: string): (line: string)
    ensures line == [] || (!IsSpace(line[0]) && !IsSpace(line[|line| - 1]))
    ensures IsWord(w) && last == [] ==> line == w
    ensures IsWord(w) && last != [] && !IsSpace(last[0]) ==> line == last + " " + w
  {
    StripAppendWord(last, w);
    Strip(last + " " + w, IsSpace)
  }

  /** Stripping `last + " " + w` for a word `w` leaves `w` alone after an empty
      `last`, and leaves the string as it is after a `last` that starts with a
      non-whitespace character. */
  lemma StripAppendWord(last: string, w: string)
    ensures IsWord(w) && last == [] ==> Strip(last + " " + w, IsSpace) == w
    ensures IsWord(w) && last != [] && !IsSpace(last[0]) ==> Strip(last + " " + w, IsSpace) == last + " " + w
  {
    var joined := last + " " + w;
    if !IsWord(w) {
    } else if last == [] {
      WordEnds(w);
      assert joined == [' '] + w;
      StripLeadingDropped(' ', w, IsSpace);
    } else {
      WordEnds(w);
      assert joined[0] == last[0] && joined[|joined| - 1] == w[|w| - 1];
    }
  }

  /** The lines of the wrap, as the loop builds them: it starts from one empty line
      and either extends the last line with the next word, when the extended line
      measures within the limit, or starts a new line with the word. `measure`
      stands for the font's `getlength` and `limit` for `line_length`. */
  function WrapLines(words: seq<string>, measure: string -> nat, limit: int): (lines: seq<string>)
    ensures 1 <= |lines| <= |words| + 1
    decreases |words|
  {
    if words == [] then [""]
    else
      var prev := WrapLines(words[..|words| - 1], measure, limit);
      var w := words[|words| - 1];
      var line := Tentative(prev[|prev| - 1], w);
      if measure(line) <= limit then prev[..|prev| - 1] + [line] else prev + [w]
  }

  /** One step of the wrap over groups: the next word joins the last group when the
      joined group measures within the limit, and starts a new group otherwise. */
  function Step(prev: seq<seq<string>>, w: string, measure: string -> nat, limit: int): (next: seq<seq<string>>)
    requires |prev| >= 1
    ensures |next| >= 1
  {
    var grown := prev[|prev| - 1] + [w];
    if measure(Join(" ", grown)) <= limit then prev[..|prev| - 1] + [grown] else prev + [[w]]
  }

  /** The same wrap over groups of words, each line a group joined by single spaces. */
  function WrapGroups(words: seq<string>, measure: string -> nat, limit: int): (groups: seq<seq<string>>)
    ensures 1 <= |groups| <= |words| + 1
    decreases |words|
  {
    if words == [] then [[]]
    else Step(WrapGroups(words[..|words| - 1], measure, limit), words[|words| - 1], measure, limit)
  }

  /** Only the first group can be empty. */
  predicate LaterNonEmpty(groups: seq<seq<string>>) {
    forall i :: 0 < i < |groups| ==> groups[i] != []
  }

  /** A line fits, or holds a single word, or is the initial empty line. */
  predicate LinesFit(groups: seq<seq<string>>, measure: string -> nat, limit: int) {
    forall i :: 0 <= i < |groups| ==>
      |groups[i]| == 1 || measure(Join(" ", groups[i])) <= limit || (i == 0 && groups[i] == [])
  }

  /** Group `g` could not have taken the first word of the group `h` after it. */
  predicate Overflows(g: seq<string>, h: seq<string>, measure: string -> nat, limit: int) {
    h != [] && measure(Join(" ", g + [h[0]])) > limit
  }

  /** No line could have taken the first word of the next one. */
  predicate Greedy(groups: seq<seq<string>>, measure: string -> nat, limit: int) {
    forall i :: 0 <= i < |groups| - 1 ==> Overflows(groups[i], groups[i + 1], measure, limit)
  }

  /** The first line is empty exactly when there are no words or the first is too long. */
  predicate LeadingEmpty(words: seq<string>, groups: seq<seq<string>>, measure: string -> nat, limit: int) {
    |groups| >= 1 && (groups[0] == [] <==> words == [] || measure(words[0]) > limit)
  }

  /** What the greedy wrap guarantees of its groups, which hold the words in order. */
  predicate GreedyWrap(words: seq<string>, groups: seq<seq<string>>, measure: string -> nat, limit: int) {
    && Concat(groups) == words
    && LaterNonEmpty(groups)
    && LinesFit(groups, measure, limit)
    && Greedy(groups, measure, limit)
    && LeadingEmpty(words, groups, measure, limit)
  }

  lemma ConcatSnoc<T>(xs: seq<seq<T>>, x: seq<T>)
    ensures Concat(xs + [x]) == Concat(xs) + x
  {
    ConcatAppend(xs, [x]);
    assert [x][1..] == [];
    assert Concat([x]) == x + Concat<T>([]);
  }

  lemma StepHoldsWords(init: seq<string>, prev: seq<seq<string>>, w: string, measure: string -> nat, limit: int)
    requires |prev| >= 1 && Concat(prev) == init
    ensures Concat(Step(prev, w, measure, limit)) == init + [w]
  {
    var last := |prev| - 1;
    if measure(Join(" ", prev[last] + [w])) <= limit {
      ConcatGrowLast(prev, w);
    } else {
      ConcatSnoc(prev, [w]);
    }
  }

  /** Growing the last group by `w` appends `w` to the concatenation. */
  lemma {:induction false} ConcatGrowLast<T>(xs: seq<seq<T>>, w: T)
    requires |xs| >= 1
    ensures Concat(xs[..|xs| - 1] + [xs[|xs| - 1] + [w]]) == Concat(xs) + [w]
  {
    var last := |xs| - 1;
    var init, x := xs[..last], xs[last];
    assert init + [x] == xs;
    ConcatSnoc(init, x);
    ConcatSnoc(init, x + [w]);
    assert Concat(init) + (x + [w]) == (Concat(init) + x) + [w];
  }

  lemma StepLaterNonEmpty(prev: seq<seq<string>>, w: string, measure: string -> nat, limit: int)
    requires |prev| >= 1 && LaterNonEmpty(prev)
    ensures LaterNonEmpty(Step(prev, w, measure, limit))
  {
  }

  lemma StepLinesFit(prev: seq<seq<string>>, w: string, measure: string -> nat, limit: int)
    requires |prev| >= 1 && LinesFit(prev, measure, limit)
    ensures LinesFit(Step(prev, w, measure, limit), measure, limit)
  {
  }

  lemma StepGreedy(prev: seq<seq<string>>, w: string, measure: string -> nat, limit: int)
    requires |prev| >= 1 && LaterNonEmpty(prev) && Greedy(prev, measure, limit)
    ensures Greedy(Step(prev, w, measure, limit), measure, limit)
  {
    var last := |prev| - 1;
    var grown := prev[last] + [w];
    var next := Step(prev, w, measure, limit);
    if measure(Join(" ", grown)) <= limit {
      forall i | 0 <= i < |next| - 1
        ensures Overflows(next[i], next[i + 1], measure, limit)
      {
        if i + 1 == last {
          assert next[i + 1][0] == prev[last][0];
          assert Overflows(prev[i], prev[i + 1], measure, limit);
        }
      }
    }
  }

  /** The first group of the groups of some words is empty when there are none,
      and is all of them when it is the only group. */
  lemma FirstGroup(init: seq<string>, prev: seq<seq<string>>)
    requires |prev| >= 1 && Concat(prev) == init
    ensures init == [] ==> prev[0] == []
    ensures |prev| == 1 ==> prev[0] == init
  {
    assert Concat(prev) == prev[0] + Concat(prev[1..]);
    if |prev| == 1 {
      assert prev[1..] == [];
    }
  }

  lemma StepLeadingEmpty(init: seq<string>, prev: seq<seq<string>>, w: string, measure: string -> nat, limit: int)
    requires |prev| >= 1 && Concat(prev) == init && LaterNonEmpty(prev)
    requires LeadingEmpty(init, prev, measure, limit)
    ensures LeadingEmpty(init + [w], Step(prev, w, measure, limit), measure, limit)
  {
    FirstGroup(init, prev);
    assert (init + [w])[0] == if init == [] then w else init[0];
    if init == [] {
      assert prev == [[]];
      assert [] + [w] == [w];
      assert Join(" ", [w]) == w;
    }
  }

  /** The groups of the wrap meet the greedy guarantees. */
  lemma {:induction false} WrapGroupsGreedy(words: seq<string>, measure: string -> nat, limit: int)
    ensures GreedyWrap(words, WrapGroups(words, measure, limit), measure, limit)
    decreases |words|
  {
    if words == [] {
      assert Concat<string>([[]]) == [] + Concat<string>([]);
    } else {
      var init := words[..|words| - 1];
      var w := words[|words| - 1];
      var prev := WrapGroups(init, measure, limit);
      WrapGroupsGreedy(init, measure, limit);
      assert init + [w] == words;
      StepHoldsWords(init, prev, w, measure, limit);
      StepLaterNonEmpty(prev, w, measure, limit);
      StepLinesFit(prev, w, measure, limit);
      StepGreedy(prev, w, measure, limit);
      StepLeadingEmpty(init, prev, w, measure, limit);
    }
  }

  /** Every group holds words only. */
  predicate WordGroups(groups: seq<seq<string>>) {
    forall i, j :: 0 <= i < |groups| && 0 <= j < |groups[i]| ==> IsWord(groups[i][j])
  }

  /** Each line is its group joined by single spaces. */
  predicate JoinedLines(lines: seq<string>, groups: seq<seq<string>>) {
    |lines| == |groups| && forall i :: 0 <= i < |lines| ==> lines[i] == Join(" ", groups[i])
  }

  /** A join of non-empty parts starts with the first part and ends with the last. */
  lemma JoinEnds(sep: string, parts: seq<string>)
    requires |parts| >= 1 && parts[0] != [] && parts[|parts| - 1] != []
    ensures var s := Join(sep, parts); var last := parts[|parts| - 1];
      s != [] && s[0] == parts[0][0] && s[|s| - 1] == last[|last| - 1]
  {
    var s, last := Join(sep, parts), parts[|parts| - 1];
    assert s[..|parts[0]|] == parts[0];
    assert s[|s| - |last|..] == last;
    assert s[|s| - 1] == s[|s| - |last|..][|last| - 1];
  }

  /** Extending the joined words of a group with one more word, as the loop does,
      is joining the group extended by that word. */
  lemma TentativeJoin(g: seq<string>, w: string)
    requires forall j :: 0 <= j < |g| ==> IsWord(g[j])
    requires IsWord(w)
    ensures Tentative(Join(" ", g), w) == Join(" ", g + [w])
  {
    if g == [] {
      assert g + [w] == [w];
    } else {
      TentativeGrow(g, w);
    }
  }

  /** A later word is appended after a single space, which nothing strips. */
  lemma TentativeGrow(g: seq<string>, w: string)
    requires g != [] && IsWord(g[0]) && IsWord(w)
    ensures Tentative(Join(" ", g), w) == Join(" ", g + [w])
  {
    JoinSnoc(" ", g, w);
    var parts := g + [w];
    assert parts[0] == g[0] && parts[|parts| - 1] == w;
    JoinEnds(" ", parts);
    WordEnds(g[0]);
    WordEnds(w);
  }

  /** Growing the last group grows the last line by the joined word. */
  lemma GrowLastLine(lines: seq<string>, groups: seq<seq<string>>, w: string)
    requires |groups| >= 1 && JoinedLines(lines, groups)
    ensures var last := |groups| - 1;
      JoinedLines(lines[..last] + [Join(" ", groups[last] + [w])], groups[..last] + [groups[last] + [w]])
  {
  }

  /** A new group of one word is a new line of that word. */
  lemma NewLine(lines: seq<string>, groups: seq<seq<string>>, w: string)
    requires JoinedLines(lines, groups)
    ensures JoinedLines(lines + [w], groups + [[w]])
  {
    assert Join(" ", [w]) == w;
  }

  /** The loop's step on lines mirrors the step on groups. */
  lemma StepLines(prevLines: seq<string>, prev: seq<seq<string>>, w: string, measure: string -> nat, limit: int)
    requires |prev| >= 1 && JoinedLines(prevLines, prev) && WordGroups(prev) && IsWord(w)
    ensures var line := Tentative(prevLines[|prevLines| - 1], w);
      var next := if measure(line) <= limit then prevLines[..|prevLines| - 1] + [line] else prevLines + [w];
      JoinedLines(next, Step(prev, w, measure, limit))
  {
    var last := |prev| - 1;
    var g := prev[last];
    assert forall j :: 0 <= j < |g| ==> IsWord(g[j]);
    TentativeJoin(g, w);
    GrowLastLine(prevLines, prev, w);
    NewLine(prevLines, prev, w);
  }

  /** The step on groups keeps groups of words. */
  lemma StepWordGroups(prev: seq<seq<string>>, w: string, measure: string -> nat, limit: int)
    requires |prev| >= 1 && WordGroups(prev) && IsWord(w)
    ensures WordGroups(Step(prev, w, measure, limit))
  {
    var last := |prev| - 1;
    var grown := prev[last] + [w];
    var next := Step(prev, w, measure, limit);
    forall i, j | 0 <= i < |next| && 0 <= j < |next[i]|
      ensures IsWord(next[i][j])
    {
      if i < last || (i == last && next == prev + [[w]]) {
        assert next[i] == prev[i];
      } else if next == prev + [[w]] {
        assert next[i] == [w];
      } else {
        assert next[i] == grown;
        if j < |prev[last]| { assert grown[j] == prev[last][j]; }
      }
    }
  }

  /** The lines the loop builds are the groups of the wrap joined by single spaces. */
  lemma {:induction false} WrapLinesAreGroups(words: seq<string>, measure: string -> nat, limit: int)
    requires forall i :: 0 <= i < |words| ==> IsWord(words[i])
    ensures JoinedLines(WrapLines(words, measure, limit), WrapGroups(words, measure, limit))
    ensures WordGroups(WrapGroups(words, measure, limit))
    decreases |words|
  {
    if words != [] {
      var init := words[..|words| - 1];
      WrapLinesAreGroups(init, measure, limit);
      StepLines(WrapLines(init, measure, limit), WrapGroups(init, measure, limit), words[|words| - 1], measure, limit);
      StepWordGroups(WrapGroups(init, measure, limit), words[|words| - 1], measure, limit);
    }
  }

  /** A join of words holds no line break. */
  lemma {:induction false} NoBreakInJoin(g: seq<string>)
    requires forall j :: 0 <= j < |g| ==> IsWord(g[j])
    ensures '\n' !in Join(" ", g)
    decreases |g|
  {
    if |g| >= 1 {
      assert '\n' !in g[0] by {
        assert IsWord(g[0]);
      }
      if |g| >= 2 {
        NoBreakInJoin(g[1..]);
      }
    }
  }

  /** The words of the lines are the words of the groups, in order. */
  lemma {:induction false} AllWordsOfLines(lines: seq<string>, groups: seq<seq<string>>)
    requires JoinedLines(lines, groups) && WordGroups(groups)
    ensures AllWords(lines) == Concat(groups)
    decreases |lines|
  {
    if lines != [] {
      SplitWordsJoinWords(' ', groups[0]);
      AllWordsOfLines(lines[1..], groups[1..]);
    }
  }

  /** `get_wrapped_text(text, font, line_length)`: the text's words wrapped into
      lines joined by line breaks. Wrapping loses, adds and reorders no word, and
      the line breaks separate exactly the lines the loop built. */
  function GetWrappedText(text: string, measure: string -> nat, limit: int): (r: string)
    ensures SplitWords(r) == SplitWords(text)
    ensures Split(r, "\n") == WrapLines(SplitWords(text), measure, limit)
  {
    var words := SplitWords(text);
    var lines := WrapLines(words, measure, limit);
    var groups := WrapGroups(words, measure, limit);
    WrapLinesAreGroups(words, measure, limit);
    WrapGroupsGreedy(words, measure, limit);
    SplitWordsJoin('\n', lines);
    AllWordsOfLines(lines, groups);
    forall i | 0 <= i < |lines|
      ensures '\n' !in lines[i]
    {
      NoBreakInJoin(groups[i]);
    }
    SplitJoinChar('\n', lines);
    Join("\n", lines)
  }

  /** Wrapping wrapped text changes nothing. */
  lemma WrapIdempotent(text: string, measure: string -> nat, limit: int)
    ensures var r := GetWrappedText(text, measure, limit);
      GetWrappedText(r, measure, limit) == r
  {
  }

  /** Text that is empty or all whitespace wraps to the empty string. */
  lemma WrapBlank(text: string, measure: string -> nat, limit: int)
    requires forall i :: 0 <= i < |text| ==> IsSpace(text[i])
    ensures GetWrappedText(text, measure, limit) == ""
  {
    SplitWordsEmpty(text);
  }

  /** Line `line` could not have taken the first word of the line `next` after it. */
  predicate CannotTake(line: string, next: string, measure: string -> nat, limit: int) {
    SplitWords(next) != [] && measure(Tentative(line, SplitWords(next)[0])) > limit
  }

  /** The lines of wrapped text: each measures within the limit, or is a single word
      too long for any line, or is the empty first line the loop starts from; no line
      could have taken the first word of the next; and the first line is empty
      exactly when there are no words or the first word alone is too long. */
  lemma WrappedLines(text: string, measure: string -> nat, limit: int)
    ensures var lines := Split(GetWrappedText(text, measure, limit), "\n");
      var words := SplitWords(text);
      && (forall i :: 0 <= i < |lines| ==>
            measure(lines[i]) <= limit || IsWord(lines[i]) || (i == 0 && lines[i] == ""))
      && (forall i :: 0 <= i < |lines| - 1 ==> CannotTake(lines[i], lines[i + 1], measure, limit))
      && (lines[0] == "" <==> words == [] || measure(words[0]) > limit)
  {
    var words := SplitWords(text);
    var lines := WrapLines(words, measure, limit);
    var groups := WrapGroups(words, measure, limit);
    WrapLinesAreGroups(words, measure, limit);
    WrapGroupsGreedy(words, measure, limit);
    forall i | 0 <= i < |lines|
      ensures measure(lines[i]) <= limit || IsWord(lines[i]) || (i == 0 && lines[i] == "")
    {
      if |groups[i]| == 1 {
        assert lines[i] == groups[i][0];
      }
    }
    forall i | 0 <= i < |lines| - 1
      ensures CannotTake(lines[i], lines[i + 1], measure, limit)
    {
      assert Overflows(groups[i], groups[i + 1], measure, limit);
      SplitWordsJoinWords(' ', groups[i + 1]);
      TentativeJoin(groups[i], groups[i + 1][0]);
    }
    if groups[0] != [] {
      JoinEnds(" ", groups[0]);
    }
  }
}

=== FILE: outcomes.dfy ===
/** Outcome types standing in for Python's `None` and for raised exceptions. */
module Outcomes {

  /** A value that may be absent; `None` models a Python function falling off its end. */
  datatype Option<+T> = None | Some(value: T)

  /** A computed value, or the message of the exception that aborted the computation. */
  datatype Result<+T> = Success(value: T) | Failure(error: string)
}

=== FILE: paths.dfy ===
/** POSIX `pathlib` paths as far as the ingestors and the meme engine use them:
    parsing a string into a path, its `name` and `parent`, `joinpath`, and `str`. */
module Paths {
  import opened Strings

  /** A pure POSIX path: whether it is rooted at `/`, and its components. */
  datatype PurePath = PurePath(absolute: bool, parts: seq<string>)

  /** A component pathlib keeps: not empty, not `.`, without `/`. */
  predicate IsComponent(p: string) {
    p != "" && p != "." && '/' !in p
  }

  predicate WellFormed(p: PurePath) {
    forall i :: 0 <= i < |p.parts| ==> IsComponent(p.parts[i])
  }

  /** Drops the empty and `.` pieces, which pathlib collapses. */
  function Components(pieces: seq<string>): (r: seq<string>)
    ensures (forall i :: 0 <= i < |pieces| ==> '/' !in pieces[i]) ==>
      forall i :: 0 <= i < |r| ==> IsComponent(r[i])
    decreases |pieces|
  {
    if pieces == [] then []
    else if pieces[0] == "" || pieces[0] == "." then Components(pieces[1..])
    else [pieces[0]] + Components(pieces[1..])
  }

  /** `PurePosixPath(s)`: repeated slashes, `.` components and a trailing slash
      vanish. A string without `/` is one component, or none when it is empty or
      `.`; `FromStringAppend` says how the pieces around each `/` combine. */
  function FromString(s: string): (p: PurePath)
    ensures WellFormed(p)
    ensures p.absolute <==> s != [] && s[0] == '/'
    ensures '/' !in s ==> p.parts == if s == "" || s == "." then [] else [s]
  {
    var pieces := Split(s, "/");
    forall i | 0 <= i < |pieces|
      ensures '/' !in pieces[i]
    {
      CharOccurs(pieces[i], '/');
    }
    SlashFreePieces(s);
    PurePath(s != [] && s[0] == '/', Components(pieces))
  }

  /** A string without `/` is a single piece, kept unless it is empty or `.`. */
  lemma SlashFreePieces(s: string)
    ensures '/' !in s ==> Components(Split(s, "/")) == if s == "" || s == "." then [] else [s]
  {
    if '/' !in s {
      CharOccurs(s, '/');
      SplitWithout(s, "/");
      assert [s][1..] == [];
    }
  }

  /** Dropping the empty and `.` pieces works piece by piece. */
  lemma {:induction false} ComponentsAppend(xs: seq<string>, ys: seq<string>)
    ensures Components(xs + ys) == Components(xs) + Components(ys)
    decreases |xs|
  {
    if xs != [] {
      assert (xs + ys)[0] == xs[0];
      assert (xs + ys)[1..] == xs[1..] + ys;
      ComponentsAppend(xs[1..], ys);
    } else {
      assert xs + ys == ys;
    }
  }

  /** The components of `a/b` are those of `a` followed by those of `b`, and `a/b`
      is absolute exactly when `a` is absolute or empty. With the single-piece case
      of `FromString` this fixes the components of every string: its
      `/`-separated pieces, in order, without the empty and `.` ones. */
  lemma FromStringAppend(a: string, b: string)
    ensures FromString(a + "/" + b).parts == FromString(a).parts + FromString(b).parts
    ensures FromString(a + "/" + b).absolute <==> a == [] || FromString(a).absolute
  {
    SplitCharAppend(a, '/', b);
    ComponentsAppend(Split(a, "/"), Split(b, "/"));
    if a == [] {
      assert (a + "/" + b)[0] == '/';
    } else {
      assert (a + "/" + b)[0] == a[0];
    }
  }

  /** `str(p)`: `.` for the empty relative path, `/` for the root. */
  function Render(p: PurePath): string
  {
    if p.absolute then "/" + Join("/", p.parts)
    else if p.parts == [] then "."
    else Join("/", p.parts)
  }

  /** `p.name`: the last component, or the empty string when there is none. */
  function Name(p: PurePath): (r: string)
    ensures p.parts != [] ==> r == p.parts[|p.parts| - 1]
    ensures p.parts == [] ==> r == ""
  {
    if p.parts == [] then "" else p.parts[|p.parts| - 1]
  }

  /** `p.suffix`: the name from its last `.` on, when that dot is neither the
      first nor the last character of the name; otherwise empty. */
  function Suffix(p: PurePath): (r: string)
    ensures var name := Name(p);
      r == [] || (|r| >= 2 && |r| < |name| && r == name[|name| - |r|..]
        && r[0] == '.' && forall i :: 1 <= i < |r| ==> r[i] != '.')
  {
    var name := Name(p);
    var e := AfterLast(name, '.');
    if 0 < |e| && |e| + 1 < |name| then
      DotSuffix(name, e);
      "." + e
    else ""
  }

  /** The text after the last `.`, with that dot in front, is a suffix of the name
      with no other dot. */
  lemma DotSuffix(name: string, e: string)
    requires IsFinalSegment(name, e, '.') && |e| + 1 < |name|
    ensures "." + e == name[|name| - |e| - 1..]
    ensures forall i :: 1 <= i < |"." + e| ==> ("." + e)[i] != '.'
  {
    var r := "." + e;
    forall i | 1 <= i < |r|
      ensures r[i] != '.'
    {
      assert r[i] == e[i - 1] == name[|name| - |e| + i - 1];
    }
  }

  /** A name `stem.ext` with a non-empty stem and a non-empty `ext` without a dot
      has the suffix `.ext`. */
  lemma SuffixOfName(p: PurePath, stem: string, ext: string)
    requires Name(p) == stem + "." + ext
    requires stem != [] && ext != [] && '.' !in ext
    ensures Suffix(p) == "." + ext
  {
    AfterLastOfSuffix(stem, '.', ext);
  }

  /** `p.parent`: the path without its last component; the root and the empty
      path are their own parents. */
  function Parent(p: PurePath): (r: PurePath)
    ensures r.absolute == p.absolute
    ensures p.parts != [] ==> r.parts + [Name(p)] == p.parts
    ensures p.parts == [] ==> r == p
  {
    if p.parts == [] then p else PurePath(p.absolute, p.parts[..|p.parts| - 1])
  }

  /** `p.joinpath(other)`: an absolute `other` replaces `p`, a relative one is appended. */
  function JoinPath(p: PurePath, other: string): (r: PurePath)
    ensures other != [] && other[0] == '/' ==> r == FromString(other)
    ensures !(other != [] && other[0] == '/') ==>
      r.absolute == p.absolute && r.parts == p.parts + FromString(other).parts
  {
    var q := FromString(other);
    if q.absolute then q else PurePath(p.absolute, p.parts + q.parts)
  }

  lemma {:induction false} ComponentsOfComponents(parts: seq<string>)
    requires forall i :: 0 <= i < |parts| ==> IsComponent(parts[i])
    ensures Components(parts) == parts
    decreases |parts|
  {
    if parts != [] {
      assert IsComponent(parts[0]);
      ComponentsOfComponents(parts[1..]);
    }
  }

  /** A single component parses to the relative path made of it. */
  lemma ComponentPath(name: string)
    requires IsComponent(name)
    ensures FromString(name) == PurePath(false, [name])
  {
    CharOccurs(name, '/');
    SplitWithout(name, "/");
    assert [name][1..] == [];
    assert Components([name]) == [name];
    assert name[0] != '/' by {
      assert name[0] in name;
    }
  }

  /** Joining a single component makes it the name, under the original path as parent. */
  lemma JoinComponent(p: PurePath, name: string)
    requires IsComponent(name)
    ensures Name(JoinPath(p, name)) == name
    ensures Parent(JoinPath(p, name)) == p
  {
    ComponentPath(name);
    assert (p.parts + [name])[..|p.parts|] == p.parts;
  }

  /** Parsing the rendering of a well-formed path gives the path back. */
  lemma RenderRoundTrip(p: PurePath)
    requires WellFormed(p)
    ensures FromString(Render(p)) == p
  {
    var s := Render(p);
    if p.parts == [] {
      if p.absolute {
        assert s == Join("/", ["", ""]);
        SplitJoinChar('/', ["", ""]);
      } else {
        CharOccurs(".", '/');
        SplitWithout(".", "/");
      }
    } else {
      forall i | 0 <= i < |p.parts|
        ensures '/' !in p.parts[i]
      {
        assert IsComponent(p.parts[i]);
      }
      ComponentsOfComponents(p.parts);
      if p.absolute {
        assert s == Join("/", [""] + p.parts);
        SplitJoinChar('/', [""] + p.parts);
      } else {
        SplitJoinChar('/', p.parts);
        JoinStart(p.parts);
        assert IsComponent(p.parts[0]);
        assert p.parts[0][0] in p.parts[0];
      }
    }
  }

  /** A join starts with its first part. */
  lemma JoinStart(parts: seq<string>)
    requires |parts| >= 1 && parts[0] != []
    ensures Join("/", parts)[0] == parts[0][0]
  {
  }

  /** `f'{n}.{ext}'` names a single component when `ext` has no `/`. */
  lemma NumberedNameIsComponent(n: nat, ext: string)
    requires '/' !in ext
    ensures IsComponent(Decimal(n) + "." + ext)
  {
    var name := Decimal(n) + "." + ext;
    assert name[0] == Decimal(n)[0];
    assert name != ".";
    forall i | 0 <= i < |name|
      ensures name[i] != '/'
    {
      if i >= |Decimal(n)| + 1 {
        assert name[i] == ext[i - |Decimal(n)| - 1];
        assert ext[i - |Decimal(n)| - 1] in ext;
      }
    }
  }

  /** Distinct numbers give distinct names `f'{n}.{ext}'`. */
  lemma NumberedNameInjective(m: nat, n: nat, ext: string)
    ensures Decimal(m) + "." + ext == Decimal(n) + "." + ext ==> m == n
  {
    if Decimal(m) + "." + ext == Decimal(n) + "." + ext {
      var a := Decimal(m) + "." + ext;
      assert |Decimal(m)| == |Decimal(n)|;
      assert Decimal(m) == a[..|Decimal(m)|];
      assert Decimal(n) == (Decimal(n) + "." + ext)[..|Decimal(n)|];
      DecimalInjective(m, n);
    }
  }

  /** A path whose name is `f'{n}.{ext}'`, for a non-empty `ext` without `.` or `/`,
      has the suffix `.ext`. */
  lemma NumberedNameSuffix(p: PurePath, n: nat, ext: string)
    requires Name(p) == Decimal(n) + "." + ext
    requires ext != [] && '.' !in ext
    ensures Suffix(p) == "." + ext
  {
    SuffixOfName(p, Decimal(n), ext);
  }
}

=== FILE: pdf_ingestor.dfy ===
/** `PDFIngestor.parse`: a `.pdf` file whose text `pdftotext` extracts into a
    temporary text file beside it, one quote per non-blank line. */
module PdfIngestor {
  import opened Outcomes
  import opened Strings
  import opened Paths
  import opened IngestorInterface
  import opened QuoteModel
  import opened QuoteLines

  const AllowedExtensions: seq<string> := ["pdf"]
  const WrongTypeMessage: string := "File extension is not of type pdf"
  const ErrorPrefix: string := "Error running subprocess pdftotext: "
  /** The largest number `random.randint(0, 100000)` draws for the temporary name. */
  const TempNameBound: nat := 100000

  /** What the extraction does: the lines read back from the temporary file (a
      failed conversion or a missing file shows as a failed stream), and the
      error of removing the file afterwards, if any. */
  datatype Extraction = Extraction(output: LineStream, removal: Option<string>)

  /** The temporary file `<n>.txt` in the directory of `path`. */
  function TempPath(path: string, n: nat): (tmp: PurePath)
    requires n <= TempNameBound
    ensures Parent(tmp) == Parent(FromString(path))
    ensures Name(tmp) == Decimal(n) + "." + "txt"
  {
    var dir := Parent(FromString(path));
    var name := Decimal(n) + "." + "txt";
    NumberedNameIsComponent(n, "txt");
    JoinComponent(dir, name);
    JoinPath(dir, name)
  }

  /** The temporary file has the suffix `.txt`. */
  lemma TempPathSuffix(path: string, n: nat)
    requires n <= TempNameBound
    ensures Suffix(TempPath(path, n)) == ".txt"
  {
    NumberedNameSuffix(TempPath(path, n), n, "txt");
  }

  /** Two draws give the same temporary file only when they drew the same number. */
  lemma TempPathInjective(path: string, m: nat, n: nat)
    requires m <= TempNameBound && n <= TempNameBound
    ensures TempPath(path, m) == TempPath(path, n) ==> m == n
  {
    NumberedNameInjective(m, n, "txt");
  }

  /** Parses the extracted lines of `path`. Everything after the extension check
      runs inside one guard: extraction, reading, a line without the separator and
      the removal of the temporary file all fail with the pdftotext prefix. */
  function Parse(path: string, run: Extraction): (r: Result<seq<Quote>>)
    ensures !CanIngest(path, AllowedExtensions) ==> r == Failure(WrongTypeMessage)
    ensures CanIngest(path, AllowedExtensions) && ReadQuotes(run.output).Failure? ==>
      r == Failure(ErrorPrefix + ReadQuotes(run.output).error)
    ensures CanIngest(path, AllowedExtensions) && ReadQuotes(run.output).Success? ==>
      r == if run.removal.Some? then Failure(ErrorPrefix + run.removal.value)
           else ReadQuotes(run.output)
  {
    if !CanIngest(path, AllowedExtensions) then Failure(WrongTypeMessage)
    else
      match ReadQuotes(run.output)
      case Failure(e) => Failure(ErrorPrefix + e)
      case Success(qs) =>
        match run.removal
        case Some(e) => Failure(ErrorPrefix + e)
        case None => Success(qs)
  }

  /** Extracted text of printable quotes, one `str` per line, parses back into them. */
  lemma RoundTrip(stem: string, qs: seq<Quote>)
    requires forall i :: 0 <= i < |qs| ==> Printable(qs[i])
    ensures Parse(stem + "." + "pdf", Extraction(LineStream(QuoteFileLines(qs), None), None)) == Success(qs)
  {
    AcceptsByExtension(stem, "pdf", AllowedExtensions);
    ReadBackQuotes(qs);
  }

  /** A non-blank extracted line without the separator is reported under the
      pdftotext prefix, wherever it stands, whatever read error would come later and
      whether or not the removal fails too. */
  lemma MissingSeparatorWrapped(stem: string, before: seq<string>, line: string, after: seq<string>,
                                failure: Option<string>, removal: Option<string>)
    requires Trimmed(line) != [] && !Contains(Trimmed(line), Separator)
    ensures Parse(stem + "." + "pdf", Extraction(LineStream(before + [line] + after, failure), removal))
      == Failure(ErrorPrefix + IndexErrorMessage)
  {
    AcceptsByExtension(stem, "pdf", AllowedExtensions);
    MalformedLineFails(before, line, after, failure);
  }
}

=== FILE: quote_lines.dfy ===
/** The line format the text, PDF and docx ingestors share: each entry is split on
    `" - "`, its first piece becomes the body and its second the author. */
module QuoteLines {
  import opened Outcomes
  import opened Strings
  import opened QuoteModel

  /** The message of the `IndexError` that `parse[1]` raises on a one-piece split. */
  const IndexErrorMessage: string := "list index out of range"

  /** A file read line by line: the lines delivered before the reader stopped, and
      the error it stopped with, if any (a file that cannot be opened delivers no
      line and fails). Lines keep their terminators. */
  datatype LineStream = LineStream(lines: seq<string>, failure: Option<string>)

  /** A non-empty string with no whitespace at either end. */
  predicate IsTrimmed(t: string) {
    t != [] && !IsSpace(t[0]) && !IsSpace(t[|t| - 1])
  }

  /** `line.strip('\n\r').strip()`. */
  function Trimmed(line: string): (t: string)
    ensures t == [] || IsTrimmed(t)
  {
    var u := Strip(line, IsLineBreak);
    SpaceStripped(u);
    Strip(u, IsSpace)
  }

  /** `strip()` leaves nothing, or a string without whitespace at either end. */
  lemma SpaceStripped(u: string)
    ensures Strip(u, IsSpace) == [] || IsTrimmed(Strip(u, IsSpace))
  {
    var t := Strip(u, IsSpace);
    assert t == [] || (!IsSpace(t[0]) && !IsSpace(t[|t| - 1]));
  }

  /** The trimmed lines that are not empty, in order. */
  function ContentLines(lines: seq<string>): (r: seq<string>)
    ensures |r| <= |lines|
    ensures forall i :: 0 <= i < |r| ==> IsTrimmed(r[i])
  {
    if lines == [] then []
    else
      var t := Trimmed(lines[0]);
      var rest := ContentLines(lines[1..]);
      if t == [] then rest
      else
        TrimmedCons(t, rest);
        [t] + rest
  }

  /** A trimmed line in front of trimmed lines keeps them all trimmed. */
  lemma TrimmedCons(t: string, rest: seq<string>)
    requires IsTrimmed(t) && forall i :: 0 <= i < |rest| ==> IsTrimmed(rest[i])
    ensures forall i :: 0 <= i < |rest| + 1 ==> IsTrimmed(([t] + rest)[i])
  {
    forall i | 0 <= i < |rest| + 1
      ensures IsTrimmed(([t] + rest)[i])
    {
      if i > 0 {
        assert ([t] + rest)[i] == rest[i - 1];
      }
    }
  }

  /** Lines of a file split into two parts contribute their content lines in order. */
  lemma {:induction false} ContentLinesAppend(a: seq<string>, b: seq<string>)
    ensures ContentLines(a + b) == ContentLines(a) + ContentLines(b)
    decreases |a|
  {
    if a == [] {
      assert a + b == b;
    } else {
      assert (a + b)[0] == a[0];
      assert (a + b)[1..] == a[1..] + b;
      ContentLinesAppend(a[1..], b);
    }
  }

  /** A line is kept, trimmed, exactly when trimming leaves something. */
  lemma ContentLinesSingle(line: string)
    ensures Trimmed(line) == [] ==> ContentLines([line]) == []
    ensures Trimmed(line) != [] ==> ContentLines([line]) == [Trimmed(line)]
  {
    assert [line][1..] == [];
  }

  /** `QuoteModel(parts[0], parts[1])` for `parts = entry.split(" - ")`. */
  function QuoteOfEntry(entry: string): (r: Result<Quote>)
    ensures r.Success? <==> Contains(entry, Separator)
    ensures r.Failure? ==> r.error == IndexErrorMessage
  {
    var parts := Split(entry, Separator);
    SplitFirst(entry, Separator);
    if |parts| < 2 then Failure(IndexErrorMessage) else Success(MakeQuote(parts[0], parts[1]))
  }

  /** The body is the text before the first separator and the author the text up to
      the next one: pieces after a second separator are dropped. */
  lemma QuoteOfEntryParts(body: string, rest: string)
    requires forall j :: 0 <= j < |body| ==> !OccursAt(body + Separator + rest, Separator, j)
    ensures QuoteOfEntry(body + Separator + rest)
      == Success(MakeQuote(body, Split(rest, Separator)[0]))
  {
    SplitAtFirst(body, Separator, rest);
  }

  /** An entry that is the `str` of a quote without the separator in it parses back
      into that quote. */
  lemma QuoteOfStr(q: Quote)
    requires Parsable(q)
    ensures QuoteOfEntry(Str(q)) == Success(q)
  {
    StrSplit(q);
  }

  /** The entries' quotes in order; an entry without the separator fails the whole. */
  function QuotesOf(entries: seq<string>): (r: Result<seq<Quote>>)
    ensures r.Success? ==> |r.value| == |entries|
    ensures r.Success? ==>
      forall i :: 0 <= i < |entries| ==> QuoteOfEntry(entries[i]) == Success(r.value[i])
    ensures r.Failure? ==> r.error == IndexErrorMessage
    decreases |entries|
  {
    if entries == [] then Success([])
    else
      var head := QuoteOfEntry(entries[0]);
      var tail := QuotesOf(entries[1..]);
      if head.Failure? then Failure(head.error)
      else if tail.Failure? then tail
      else
        EntryQuotesCons(entries, head.value, tail.value);
        Success([head.value] + tail.value)
  }

  /** The quote of the first entry in front of the quotes of the others gives each
      entry its own quote. */
  lemma EntryQuotesCons(entries: seq<string>, q: Quote, qs: seq<Quote>)
    requires entries != [] && QuoteOfEntry(entries[0]) == Success(q)
    requires |qs| == |entries| - 1
    requires forall i :: 0 <= i < |qs| ==> QuoteOfEntry(entries[1..][i]) == Success(qs[i])
    ensures forall i :: 0 <= i < |entries| ==> QuoteOfEntry(entries[i]) == Success(([q] + qs)[i])
  {
    forall i | 0 <= i < |entries|
      ensures QuoteOfEntry(entries[i]) == Success(([q] + qs)[i])
    {
      if i > 0 {
        assert entries[i] == entries[1..][i - 1];
        assert ([q] + qs)[i] == qs[i - 1];
      }
    }
  }

  /** One more entry in front adds its quote in front. */
  lemma QuotesOfCons(e: string, es: seq<string>, q: Quote, qs: seq<Quote>)
    requires QuoteOfEntry(e) == Success(q) && QuotesOf(es) == Success(qs)
    ensures QuotesOf([e] + es) == Success([q] + qs)
  {
    var entries := [e] + es;
    assert entries[0] == e;
    assert entries[1..] == es;
  }

  /** The entries parse exactly when every one of them contains the separator. */
  lemma {:induction false} QuotesOfSucceeds(entries: seq<string>)
    ensures QuotesOf(entries).Success? <==>
      forall i :: 0 <= i < |entries| ==> Contains(entries[i], Separator)
    decreases |entries|
  {
    if entries != [] {
      QuotesOfSucceeds(entries[1..]);
      if forall i :: 0 <= i < |entries| ==> Contains(entries[i], Separator) {
        assert forall i :: 0 <= i < |entries[1..]| ==> entries[1..][i] == entries[i + 1];
      } else {
        var i :| 0 <= i < |entries| && !Contains(entries[i], Separator);
        if i > 0 {
          assert entries[1..][i - 1] == entries[i];
        }
      }
    }
  }

  /** The loop over a file's lines: content lines become quotes in order, and an
      entry without the separator stops it before a later read error can. */
  function ReadQuotes(stream: LineStream): (r: Result<seq<Quote>>)
    ensures QuotesOf(ContentLines(stream.lines)).Failure? ==> r == QuotesOf(ContentLines(stream.lines))
    ensures QuotesOf(ContentLines(stream.lines)).Success? ==>
      r == if stream.failure.Some? then Failure(stream.failure.value)
           else QuotesOf(ContentLines(stream.lines))
  {
    match QuotesOf(ContentLines(stream.lines))
    case Failure(e) => Failure(e)
    case Success(qs) =>
      match stream.failure
      case Some(e) => Failure(e)
      case None => Success(qs)
  }

  /** A content line without the separator fails the loop with the index error,
      wherever it stands and whatever read error would come later. */
  lemma MalformedLineFails(before: seq<string>, line: string, after: seq<string>, failure: Option<string>)
    requires Trimmed(line) != [] && !Contains(Trimmed(line), Separator)
    ensures ReadQuotes(LineStream(before + [line] + after, failure)) == Failure(IndexErrorMessage)
  {
    ContentLinesAppend(before + [line], after);
    ContentLinesAppend(before, [line]);
    ContentLinesSingle(line);
    var entries := ContentLines(before + [line] + after);
    assert entries[|ContentLines(before)|] == Trimmed(line);
    QuotesOfSucceeds(entries);
  }

  /** A quote that survives being written as its `str` on a line of its own: built
      by `QuoteModel`, no separator in either part, no line break in either part
      (the line reader would cut the line there), and an author that does not end
      in whitespace (trimming would cut it). */
  predicate Printable(q: Quote) {
    && Parsable(q)
    && SingleLine(q.body) && SingleLine(q.author)
    && q.author != [] && !IsSpace(q.author[|q.author| - 1])
  }

  /** No `\n` or `\r` in `s`: a file reader delivers it whole as one line. */
  predicate SingleLine(s: string) {
    forall i :: 0 <= i < |s| ==> !IsLineBreak(s[i])
  }

  /** A quote whose `str` splits back into its parts: built by `QuoteModel`, with
      no separator in either part. */
  predicate Parsable(q: Quote) {
    Normalised(q) && !Contains(q.body, Separator) && !Contains(q.author, Separator)
  }

  /** The lines a file reader delivers from a file holding each quote's `str`, one
      per line; for a printable quote each `str` is one whole line. */
  function QuoteFileLines(qs: seq<Quote>): (lines: seq<string>)
    ensures |lines| == |qs|
  {
    if qs == [] then [] else [Str(qs[0]) + "\n"] + QuoteFileLines(qs[1..])
  }

  /** A string without whitespace at either end is its own trimmed form. */
  lemma TrimmedFixed(t: string)
    requires IsTrimmed(t)
    ensures Trimmed(t) == t
  {
    assert !IsLineBreak(t[0]) && !IsLineBreak(t[|t| - 1]);
    var u := Strip(t, IsLineBreak);
    assert u == t;
  }

  /** Trimming removes the line terminator of a line whose text has no whitespace
      at either end. */
  lemma TrimmedTerminated(t: string)
    requires IsTrimmed(t)
    ensures Trimmed(t + "\n") == t
  {
    assert !IsLineBreak(t[0]);
    StripIgnoresTrailing(t, '\n', IsLineBreak);
    TrimmedFixed(t);
  }

  /** Trimming the written line of a printable quote gives its `str` back. */
  lemma TrimmedLine(q: Quote)
    requires Printable(q)
    ensures Trimmed(Str(q) + "\n") == Str(q)
  {
    var s := Str(q);
    assert s[0] == '"';
    assert s[|s| - 1] == q.author[|q.author| - 1];
    TrimmedTerminated(s);
  }

  /** The `str` of each quote, in order. */
  function Strs(qs: seq<Quote>): (r: seq<string>)
    ensures |r| == |qs|
  {
    if qs == [] then [] else [Str(qs[0])] + Strs(qs[1..])
  }

  /** No `str` of a quote is empty. */
  lemma {:induction false} StrsNonEmpty(qs: seq<Quote>)
    ensures forall i :: 0 <= i < |qs| ==> Strs(qs)[i] != []
    decreases |qs|
  {
    if qs != [] {
      StrsNonEmpty(qs[1..]);
      assert forall i :: 1 <= i < |qs| ==> Strs(qs)[i] == Strs(qs[1..])[i - 1];
    }
  }

  /** The content lines of a file of printable quotes are their `str`s. */
  lemma {:induction false} ContentOfQuoteFile(qs: seq<Quote>)
    requires forall i :: 0 <= i < |qs| ==> Printable(qs[i])
    ensures ContentLines(QuoteFileLines(qs)) == Strs(qs)
    decreases |qs|
  {
    if qs != [] {
      var line := Str(qs[0]) + "\n";
      var rest := QuoteFileLines(qs[1..]);
      ContentOfQuoteFile(qs[1..]);
      TrimmedLine(qs[0]);
      assert QuoteFileLines(qs) == [line] + rest;
      ContentLinesAppend([line], rest);
      ContentLinesSingle(line);
    }
  }

  /** The `str`s of quotes without the separator parse back into the quotes. */
  lemma {:induction false} QuotesOfStrs(qs: seq<Quote>)
    requires forall i :: 0 <= i < |qs| ==> Parsable(qs[i])
    ensures QuotesOf(Strs(qs)) == Success(qs)
    decreases |qs|
  {
    if qs != [] {
      var q, rest := qs[0], qs[1..];
      assert qs == [q] + rest;
      assert Strs(qs) == [Str(q)] + Strs(rest);
      QuotesOfStrs(rest);
      QuoteOfStr(q);
      QuotesOfCons(Str(q), Strs(rest), q, rest);
    }
  }

  /** Reading back a file of printable quotes written one per line gives the same quotes. */
  lemma ReadBackQuotes(qs: seq<Quote>)
    requires forall i :: 0 <= i < |qs| ==> Printable(qs[i])
    ensures ReadQuotes(LineStream(QuoteFileLines(qs), None)) == Success(qs)
  {
    ContentOfQuoteFile(qs);
    QuotesOfStrs(qs);
  }

  /** Lines that trim to nothing give no quotes, and no error unless the reader failed. */
  lemma {:induction false} BlankLines(lines: seq<string>)
    requires forall i :: 0 <= i < |lines| ==> Trimmed(lines[i]) == []
    ensures ContentLines(lines) == []
    ensures ReadQuotes(LineStream(lines, None)) == Success([])
    decreases |lines|
  {
    if lines != [] {
      BlankLines(lines[1..]);
    }
  }
}

=== FILE: quote_model.dfy ===
/** `QuoteModel`: a quote body, always wrapped in one pair of double quotes, and its author. */
module QuoteModel {
  import opened Strings

  datatype Quote = Quote(body: string, author: string)

  /** The character `strip('"')` removes. */
  predicate IsQuoteMark(c: char) {
    c == '"'
  }

  /** The separator between body and author, in `str(quote)` and in the quote files. */
  const Separator: string := " - "

  /** `QuoteModel(body, author)`: the body loses every leading and trailing double
      quote and is wrapped in exactly one new pair; the author is kept as given. */
  function MakeQuote(body: string, author: string): (q: Quote)
    ensures |q.body| >= 2 && q.body[0] == '"' && q.body[|q.body| - 1] == '"'
    ensures var inner := q.body[1..|q.body| - 1];
      inner == [] || (inner[0] != '"' && inner[|inner| - 1] != '"')
    ensures (body == [] || (body[0] != '"' && body[|body| - 1] != '"')) ==>
      q.body == "\"" + body + "\""
    ensures q.author == author
  {
    Quote("\"" + Strip(body, IsQuoteMark) + "\"", author)
  }

  /** The text inside the new quotes is the given body with only double quotes
      removed, and those only from its two ends: the leading double quotes number
      `|body| - |LStrip(body, IsQuoteMark)|`. */
  lemma {:induction false} MakeQuoteKeepsText(body: string, author: string)
    ensures var n := |MakeQuote(body, author).body| - 2;
      var k := |body| - |LStrip(body, IsQuoteMark)|;
      && k + n <= |body|
      && MakeQuote(body, author).body == "\"" + body[k..k + n] + "\""
      && (forall i :: 0 <= i < k ==> body[i] == '"')
      && (forall i :: k + n <= i < |body| ==> body[i] == '"')
  {
    var q := MakeQuote(body, author);
    var inner := Strip(body, IsQuoteMark);
    var k := |body| - |LStrip(body, IsQuoteMark)|;
    StripIsSlice(body, IsQuoteMark);
    assert q.body == "\"" + inner + "\"";
    assert |q.body| - 2 == |inner|;
    assert inner == body[k..k + |inner|];
  }

  /** A quote as `QuoteModel` builds it: one pair of double quotes around a body
      that neither starts nor ends with one. */
  predicate Normalised(q: Quote) {
    && |q.body| >= 2 && q.body[0] == '"' && q.body[|q.body| - 1] == '"'
    && var inner := q.body[1..|q.body| - 1];
       inner == [] || (inner[0] != '"' && inner[|inner| - 1] != '"')
  }

  /** Building a quote from a built quote's body changes nothing: double quotes never pile up. */
  lemma NormalisedFixed(q: Quote)
    requires Normalised(q)
    ensures MakeQuote(q.body, q.author) == q
  {
    var b := q.body;
    var inner := b[1..|b| - 1];
    assert b == ['"'] + inner + ['"'];
    StripPadded(inner, '"', IsQuoteMark);
  }

  /** Quoting is idempotent. */
  lemma QuoteIdempotent(body: string, author: string)
    ensures var q := MakeQuote(body, author); MakeQuote(q.body, author) == q
  {
    NormalisedFixed(MakeQuote(body, author));
  }

  /** `repr(quote)`: `<body, author>`. */
  function Repr(q: Quote): (r: string)
    ensures |r| == |q.body| + |q.author| + 4
    ensures r[0] == '<' && r[|r| - 1] == '>'
    ensures r[1..|q.body| + 1] == q.body
    ensures r[|q.body| + 1..|q.body| + 3] == ", "
    ensures r[|q.body| + 3..|r| - 1] == q.author
  {
    "<" + q.body + ", " + q.author + ">"
  }

  /** The separator between body and author in `repr(quote)`. */
  const ReprSeparator: string := ", "

  /** Inside the angle brackets of `repr(quote)`, splitting on `, ` gives back the
      body and the author when neither contains `, `: a body ending in `,` cannot
      hide the separator, whose second character is a space. */
  lemma ReprSplit(q: Quote)
    requires !Contains(q.body, ReprSeparator) && !Contains(q.author, ReprSeparator)
    ensures var r := Repr(q); Split(r[1..|r| - 1], ReprSeparator) == [q.body, q.author]
  {
    var r := Repr(q);
    var b := q.body;
    var inner := b + ReprSeparator + q.author;
    assert r[1..|r| - 1] == inner;
    forall j | 0 <= j < |b|
      ensures !OccursAt(inner, ReprSeparator, j)
    {
      if j + 2 <= |b| {
        assert !OccursAt(b, ReprSeparator, j);
        var k :| 0 <= k < 2 && b[j + k] != ReprSeparator[k];
        assert inner[j + k] == b[j + k];
      } else {
        assert inner[j + 1] == ReprSeparator[0] != ReprSeparator[1];
      }
    }
    SplitAtFirst(b, ReprSeparator, q.author);
    SplitWithout(q.author, ReprSeparator);
  }

  /** `str(quote)`: `body - author`. */
  function Str(q: Quote): (r: string)
    ensures |r| == |q.body| + |Separator| + |q.author|
    ensures r[..|q.body|] == q.body && r[|q.body| + |Separator|..] == q.author
    ensures OccursAt(r, Separator, |q.body|)
  {
    q.body + Separator + q.author
  }

  /** Splitting `str(quote)` on the separator gives back the body and the author
      when the author does not contain the separator; the body never hides one
      that overlaps its closing double quote. */
  lemma StrSplit(q: Quote)
    requires Normalised(q) && !Contains(q.body, Separator) && !Contains(q.author, Separator)
    ensures Split(Str(q), Separator) == [q.body, q.author]
    ensures MakeQuote(Split(Str(q), Separator)[0], Split(Str(q), Separator)[1]) == q
  {
    BodyHidesNoSeparator(q.body, q.author);
    SplitAtFirst(q.body, Separator, q.author);
    SplitWithout(q.author, Separator);
    NormalisedFixed(q);
  }

  /** A body that ends in a double quote and has no separator inside has none that
      starts in it when the separator and more text follow. */
  lemma BodyHidesNoSeparator(b: string, rest: string)
    requires b != [] && b[|b| - 1] == '"' && !Contains(b, Separator)
    ensures forall j :: 0 <= j < |b| ==> !OccursAt(b + Separator + rest, Separator, j)
  {
    var s := b + Separator + rest;
    forall j | 0 <= j < |b|
      ensures !OccursAt(s, Separator, j)
    {
      if j + 3 <= |b| {
        assert !OccursAt(b, Separator, j);
        var k :| 0 <= k < 3 && b[j + k] != Separator[k];
        assert s[j + k] == b[j + k];
      } else if j + 2 == |b| {
        assert s[j + 1] == b[|b| - 1];
        assert s[j + 1] != Separator[1];
      } else {
        assert s[j] == b[|b| - 1];
        assert s[j + 0] != Separator[0];
      }
    }
  }
}

=== FILE: strings.dfy ===
/** The Python `str` operations the core relies on: `strip`, `find`, `split(sep)`,
    `sep.join` and `str(n)` for a natural number. */
module Strings {
  import opened Outcomes

  /** The characters Python's `str.isspace` accepts, which `str.strip()` and
      `str.split()` treat as whitespace. */
  predicate IsSpace(c: char) {
    || c == ' '
    || '\t' <= c <= '\r'
    || '\U{1c}' <= c <= '\U{1f}'
    || c == '\U{85}' || c == '\U{a0}' || c == '\U{1680}'
    || '\U{2000}' <= c <= '\U{200a}'
    || c == '\U{2028}' || c == '\U{2029}' || c == '\U{202f}' || c == '\U{205f}' || c == '\U{3000}'
  }

  /** The characters of `strip('\n\r')`. */
  predicate IsLineBreak(c: char) {
    c == '\n' || c == '\r'
  }

  /** The number of leading characters of `s` that `drop` removes. */
  function LeadingDropped(s: string, drop: char -> bool): (n: nat)
    ensures n <= |s|
    ensures forall i :: 0 <= i < n ==> drop(s[i])
    ensures n == |s| || !drop(s[n])
    decreases |s|
  {
    if s != [] && drop(s[0]) then 1 + LeadingDropped(s[1..], drop) else 0
  }

  /** The length of `s` without the trailing characters that `drop` removes. */
  function KeptLength(s: string, drop: char -> bool): (n: nat)
    ensures n <= |s|
    ensures forall i :: n <= i < |s| ==> drop(s[i])
    ensures n == 0 || !drop(s[n - 1])
    decreases |s|
  {
    if s != [] && drop(s[|s| - 1]) then KeptLength(s[..|s| - 1], drop) else |s|
  }

  /** `s.lstrip(chars)`, the characters to drop given as a predicate:
      the longest suffix of `s` that does not start with a dropped character. */
  function LStrip(s: string, drop: char -> bool): (r: string)
    ensures |r| <= |s| && r == s[|s| - |r|..]
    ensures forall i :: 0 <= i < |s| - |r| ==> drop(s[i])
    ensures r == [] || !drop(r[0])
  {
    s[LeadingDropped(s, drop)..]
  }

  /** `s.rstrip(chars)`: the longest prefix of `s` that does not end with a dropped character. */
  function RStrip(s: string, drop: char -> bool): (r: string)
    ensures |r| <= |s| && r == s[..|r|]
    ensures forall i :: |r| <= i < |s| ==> drop(s[i])
    ensures r == [] || !drop(r[|r| - 1])
  {
    s[..KeptLength(s, drop)]
  }

  /** `s.strip(chars)`: `s` with every leading and trailing dropped character removed. */
  function Strip(s: string, drop: char -> bool): (r: string)
    ensures r == [] || (!drop(r[0]) && !drop(r[|r| - 1]))
    ensures (s == [] || (!drop(s[0]) && !drop(s[|s| - 1]))) ==> r == s
  {
    RStrip(LStrip(s, drop), drop)
  }

  /** The stripped string is the slice of `s` that starts after the dropped prefix,
      and nothing but dropped characters lies outside it. */
  lemma StripIsSlice(s: string, drop: char -> bool)
    ensures |s| - |LStrip(s, drop)| + |Strip(s, drop)| <= |s|
    ensures Strip(s, drop) == s[|s| - |LStrip(s, drop)|..|s| - |LStrip(s, drop)| + |Strip(s, drop)|]
    ensures forall i :: 0 <= i < |s| - |LStrip(s, drop)| ==> drop(s[i])
    ensures forall i :: |s| - |LStrip(s, drop)| + |Strip(s, drop)| <= i < |s| ==> drop(s[i])
  {
    StripSlice(s, drop);
    StripTailDropped(s, drop);
  }

  lemma {:induction false} StripSlice(s: string, drop: char -> bool)
    ensures Strip(s, drop) == s[LeadingDropped(s, drop)..LeadingDropped(s, drop) + |Strip(s, drop)|]
  {
    var k := LeadingDropped(s, drop);
    var l := s[k..];
    var m := KeptLength(l, drop);
    var r := l[..m];
    assert LStrip(s, drop) == l;
    assert RStrip(l, drop) == r;
    SliceOfSlice(s, k, m);
    assert Strip(s, drop) == r && |r| == m;
  }

  /** A prefix of a suffix is a slice. */
  lemma SliceOfSlice(s: string, k: nat, m: nat)
    requires k + m <= |s|
    ensures s[k..][..m] == s[k..k + m]
  {
  }

  lemma StripTailDropped(s: string, drop: char -> bool)
    ensures forall i :: LeadingDropped(s, drop) + |Strip(s, drop)| <= i < |s| ==> drop(s[i])
  {
    var k := LeadingDropped(s, drop);
    var l := s[k..];
    var m := KeptLength(l, drop);
    forall i | k + m <= i < |s|
      ensures drop(s[i])
    {
      assert s[i] == l[i - k];
    }
  }

  /** Stripping a string that has a kept first character and one extra dropped
      character at its end gives the same result as stripping it without that character. */
  lemma StripIgnoresTrailing(s: string, c: char, drop: char -> bool)
    requires s != [] && !drop(s[0]) && drop(c)
    ensures Strip(s + [c], drop) == Strip(s, drop)
  {
    assert (s + [c])[0] == s[0];
    assert LStrip(s + [c], drop) == s + [c];
    assert LStrip(s, drop) == s;
    RStripDroppedLast(s, c, drop);
  }

  /** Appending a dropped character to `x` leaves nothing when `lstrip` removes all
      of `x`, and otherwise appends it to what `lstrip` keeps. */
  lemma LStripAppendDropped(x: string, c: char, drop: char -> bool)
    requires drop(c)
    ensures LStrip(x + [c], drop) == if LStrip(x, drop) == [] then [] else LStrip(x, drop) + [c]
  {
    var n := LeadingDropped(x, drop);
    LeadingDroppedAppend(x, c, drop);
    if n < |x| {
      assert (x + [c])[n..] == x[n..] + [c];
    }
  }

  /** Appending a dropped character extends the dropped prefix only when all of `x` was dropped. */
  lemma {:induction false} LeadingDroppedAppend(x: string, c: char, drop: char -> bool)
    requires drop(c)
    ensures LeadingDropped(x + [c], drop) ==
      if LeadingDropped(x, drop) == |x| then |x| + 1 else LeadingDropped(x, drop)
    decreases |x|
  {
    if x != [] {
      assert (x + [c])[0] == x[0];
      if drop(x[0]) {
        assert (x + [c])[1..] == x[1..] + [c];
        LeadingDroppedAppend(x[1..], c, drop);
      }
    } else {
      assert (x + [c])[1..] == [];
    }
  }

  /** A dropped first character does not change what `lstrip` keeps. */
  lemma LStripDroppedFirst(c: char, x: string, drop: char -> bool)
    requires drop(c)
    ensures LStrip([c] + x, drop) == LStrip(x, drop)
  {
    assert ([c] + x)[1..] == x;
    assert LeadingDropped([c] + x, drop) == 1 + LeadingDropped(x, drop);
  }

  /** A dropped last character does not change what `rstrip` keeps. */
  lemma RStripDroppedLast(x: string, c: char, drop: char -> bool)
    requires drop(c)
    ensures RStrip(x + [c], drop) == RStrip(x, drop)
  {
    assert (x + [c])[..|x|] == x;
    assert KeptLength(x + [c], drop) == KeptLength(x, drop);
  }

  /** A dropped character in front of `x` does not change what `strip` keeps. */
  lemma StripLeadingDropped(c: char, x: string, drop: char -> bool)
    requires drop(c)
    ensures Strip([c] + x, drop) == Strip(x, drop)
  {
    LStripDroppedFirst(c, x, drop);
  }

  /** Surrounding a string with dropped characters does not change what `strip` keeps. */
  lemma StripPadded(x: string, c: char, drop: char -> bool)
    requires drop(c)
    ensures Strip([c] + x + [c], drop) == Strip(x, drop)
  {
    assert [c] + x + [c] == [c] + (x + [c]);
    LStripDroppedFirst(c, x + [c], drop);
    LStripAppendDropped(x, c, drop);
    var l := LStrip(x, drop);
    if l != [] {
      RStripDroppedLast(l, c, drop);
    }
  }

  /** `sep` occurs in `s` at index `i`. */
  predicate OccursAt(s: string, sep: string, i: int) {
    0 <= i && i + |sep| <= |s| && forall k :: 0 <= k < |sep| ==> s[i + k] == sep[k]
  }

  /** Python's `sep in s`. */
  predicate Contains(s: string, sep: string) {
    exists i :: 0 <= i <= |s| && OccursAt(s, sep, i)
  }

  /** `s.find(sep, k)`: the first occurrence of `sep` at or after index `k`. */
  function FindFrom(s: string, sep: string, k: nat): (r: Option<nat>)
    ensures r.Some? ==> k <= r.value && OccursAt(s, sep, r.value)
    ensures r.Some? ==> forall j :: k <= j < r.value ==> !OccursAt(s, sep, j)
    ensures r.None? ==> forall j :: k <= j ==> !OccursAt(s, sep, j)
    decreases |s| - k
  {
    if k + |sep| > |s| then None
    else if OccursAt(s, sep, k) then Some(k)
    else FindFrom(s, sep, k + 1)
  }

  /** `s.endswith(e)`. */
  predicate EndsWith(s: string, e: string) {
    |e| <= |s| && s[|s| - |e|..] == e
  }

  /** `sep.join(parts)`: empty for no parts, otherwise starting with the first part
      and ending with the last. */
  function Join(sep: string, parts: seq<string>): (r: string)
    ensures parts == [] ==> r == []
    ensures parts != [] ==> parts[0] <= r && EndsWith(r, parts[|parts| - 1])
    decreases |parts|
  {
    if |parts| == 0 then ""
    else if |parts| == 1 then parts[0]
    else parts[0] + sep + Join(sep, parts[1..])
  }

  /** Joining one more part appends the separator and that part. */
  lemma {:induction false} JoinSnoc(sep: string, parts: seq<string>, x: string)
    requires parts != []
    ensures Join(sep, parts + [x]) == Join(sep, parts) + sep + x
    decreases |parts|
  {
    var a, tail := parts[0], parts[1..];
    assert parts == [a] + tail;
    if tail == [] {
      JoinCons(sep, a, [x]);
    } else {
      JoinSnoc(sep, tail, x);
      JoinCons(sep, a, tail + [x]);
      JoinCons(sep, a, tail);
      assert parts + [x] == [a] + (tail + [x]);
    }
  }

  /** A prefix that ends before the first occurrence of `sep` does not contain `sep`. */
  lemma PrefixBeforeFirstOccurrence(s: string, sep: string, i: nat)
    requires sep != [] && i <= |s|
    requires forall j :: 0 <= j < i ==> !OccursAt(s, sep, j)
    ensures !Contains(s[..i], sep)
  {
    forall j | 0 <= j <= i
      ensures !OccursAt(s[..i], sep, j)
    {
      if j + |sep| <= i {
        assert s[..i][j..j + |sep|] == s[j..j + |sep|];
        assert !OccursAt(s, sep, j);
      }
    }
  }

  /** `s.split(sep)` for a non-empty separator: the pieces between the leftmost
      non-overlapping occurrences of `sep`, none of which contains `sep`. */
  function Split(s: string, sep: string): (parts: seq<string>)
    requires sep != []
    ensures |parts| >= 1
    ensures forall i :: 0 <= i < |parts| ==> !Contains(parts[i], sep)
    decreases |s|
  {
    match FindFrom(s, sep, 0)
    case None => [s]
    case Some(i) =>
      var rest := Split(s[i + |sep|..], sep);
      PrefixBeforeFirstOccurrence(s, sep, i);
      [s[..i]] + rest
  }

  /** There are at least two pieces exactly when `s` contains `sep`; a single piece
      is `s` itself; the first piece is the prefix of `s` that ends at the first
      occurrence of `sep`. */
  lemma SplitFirst(s: string, sep: string)
    requires sep != []
    ensures var parts := Split(s, sep);
      && (|parts| >= 2 <==> Contains(s, sep))
      && (|parts| == 1 ==> parts[0] == s)
      && |parts[0]| <= |s|
      && parts[0] == s[..|parts[0]|]
      && (forall j :: 0 <= j < |parts[0]| ==> !OccursAt(s, sep, j))
      && (|parts| >= 2 ==> OccursAt(s, sep, |parts[0]|))
  {
    match FindFrom(s, sep, 0)
    case None =>
      assert !Contains(s, sep);
    case Some(i) =>
      SplitUnfold(s, sep, i);
      assert OccursAt(s, sep, i);
  }

  /** Joining the pieces of a split with the separator gives back the input. */
  lemma {:induction false} JoinSplit(s: string, sep: string)
    requires sep != []
    ensures Join(sep, Split(s, sep)) == s
    decreases |s|
  {
    match FindFrom(s, sep, 0)
    case None =>
    case Some(i) =>
      var a, rest := s[..i], s[i + |sep|..];
      var pieces := Split(rest, sep);
      SplitUnfold(s, sep, i);
      JoinSplit(rest, sep);
      JoinCons(sep, a, pieces);
      Around(s, sep, i);
  }

  /** An occurrence of `sep` cuts `s` into the text before it, `sep` and the text after. */
  lemma Around(s: string, sep: string, i: nat)
    requires OccursAt(s, sep, i)
    ensures s == s[..i] + sep + s[i + |sep|..]
  {
    assert s[i..i + |sep|] == sep;
    assert s == s[..i] + s[i..i + |sep|] + s[i + |sep|..];
  }

  /** Joining a part in front of at least one more puts the separator between them. */
  lemma JoinCons(sep: string, a: string, parts: seq<string>)
    requires parts != []
    ensures Join(sep, [a] + parts) == a + sep + Join(sep, parts)
  {
    assert ([a] + parts)[1..] == parts;
  }

  /** Unfolds one step of `Split` at the first occurrence of `sep`. */
  lemma SplitUnfold(s: string, sep: string, i: nat)
    requires sep != [] && FindFrom(s, sep, 0) == Some(i) && i + |sep| <= |s|
    ensures Split(s, sep) == [s[..i]] + Split(s[i + |sep|..], sep)
  {
  }

  /** Splitting `a + sep + b` when `sep` does not occur before the end of `a`
      yields `a` followed by the pieces of `b`. */
  lemma SplitAtFirst(a: string, sep: string, b: string)
    requires sep != []
    requires forall j :: 0 <= j < |a| ==> !OccursAt(a + sep + b, sep, j)
    ensures Split(a + sep + b, sep) == [a] + Split(b, sep)
  {
    var s := a + sep + b;
    assert s[|a|..|a| + |sep|] == sep;
    assert OccursAt(s, sep, |a|);
    assert FindFrom(s, sep, 0) == Some(|a|);
    assert s[..|a|] == a;
    assert s[|a| + |sep|..] == b;
  }

  /** A string that does not contain `sep` splits into itself alone. */
  lemma SplitWithout(s: string, sep: string)
    requires sep != [] && !Contains(s, sep)
    ensures Split(s, sep) == [s]
  {
    SplitFirst(s, sep);
  }

  /** `e` is the text after the last `c` in `s`, or all of `s` when `s` has no `c`. */
  predicate IsFinalSegment(s: string, e: string, c: char) {
    && |e| <= |s|
    && (forall k :: 0 <= k < |e| ==> e[k] == s[|s| - |e| + k])
    && (forall j :: |s| - |e| <= j < |s| ==> s[j] != c)
    && (|e| < |s| ==> s[|s| - |e| - 1] == c)
  }

  /** Two final segments of the same string are equal: the text after the last
      `c` is determined by the string. */
  lemma FinalSegmentUnique(s: string, e1: string, e2: string, c: char)
    requires IsFinalSegment(s, e1, c) && IsFinalSegment(s, e2, c)
    ensures e1 == e2
  {
  }

  /** The text after the last `c` of the rest of `s` past a `c` is the text after
      the last `c` of `s`. */
  lemma FinalSegmentPastSeparator(s: string, i: nat, e: string, c: char)
    requires i < |s| && s[i] == c
    requires IsFinalSegment(s[i + 1..], e, c)
    ensures IsFinalSegment(s, e, c)
  {
    var rest := s[i + 1..];
    forall k | 0 <= k < |e|
      ensures e[k] == s[|s| - |e| + k]
    {
      assert e[k] == rest[|rest| - |e| + k];
    }
    forall j | |s| - |e| <= j < |s|
      ensures s[j] != c
    {
      assert s[j] == rest[j - i - 1];
    }
    if |e| < |rest| {
      assert rest[|rest| - |e| - 1] == s[|s| - |e| - 1];
    }
  }

  /** A string without `c` is its own text after the last `c`. */
  lemma FinalSegmentWithout(s: string, c: char)
    requires c !in s
    ensures IsFinalSegment(s, s, c)
  {
    forall j | 0 <= j < |s|
      ensures s[j] != c
    {
      assert s[j] in s;
    }
  }

  /** The last piece of `s.split(c)` is the text after the last `c`. */
  predicate LastPieceIsFinal(s: string, c: char) {
    var parts := Split(s, [c]);
    IsFinalSegment(s, parts[|parts| - 1], c)
  }

  /** The last piece of `s.split(c)` is the text after the last `c`. */
  lemma {:induction false} SplitLastIsFinalSegment(s: string, c: char)
    ensures LastPieceIsFinal(s, c)
    decreases |s|
  {
    match FindFrom(s, [c], 0)
    case None =>
      LastPieceWithout(s, c);
    case Some(i) =>
      SplitStep(s, c, i);
      SplitLastIsFinalSegment(s[i + 1..], c);
      LastPiecePastSeparator(s, c, i, Split(s[i + 1..], [c]));
  }

  lemma LastPieceWithout(s: string, c: char)
    requires FindFrom(s, [c], 0).None?
    ensures LastPieceIsFinal(s, c)
  {
    forall j | 0 <= j < |s|
      ensures s[j] != c
    {
      assert !OccursAt(s, [c], j);
      assert s[j + 0] == s[j];
    }
    FinalSegmentWithout(s, c);
    assert Split(s, [c]) == [s];
  }

  /** The last of the pieces past a `c` stays the text after the last `c` once the
      piece before that `c` is put in front. */
  lemma LastPiecePastSeparator(s: string, c: char, i: nat, restParts: seq<string>)
    requires i < |s| && s[i] == c && restParts != []
    requires IsFinalSegment(s[i + 1..], restParts[|restParts| - 1], c)
    ensures IsFinalSegment(s, ([s[..i]] + restParts)[|restParts|], c)
  {
    FinalSegmentPastSeparator(s, i, restParts[|restParts| - 1], c);
    LastOfCons(s[..i], restParts);
  }

  /** Putting an element in front keeps the last element of a non-empty sequence. */
  lemma LastOfCons<T>(x: T, xs: seq<T>)
    requires xs != []
    ensures ([x] + xs)[|xs|] == xs[|xs| - 1]
  {
  }

  /** Splitting at a first occurrence of the character `c`. */
  lemma SplitStep(s: string, c: char, i: nat)
    requires FindFrom(s, [c], 0) == Some(i)
    ensures i < |s| && s[i] == c
    ensures Split(s, [c]) == [s[..i]] + Split(s[i + 1..], [c])
  {
    assert OccursAt(s, [c], i);
    assert s[i + 0] == [c][0];
    SplitUnfold(s, [c], i);
  }

  /** Before its first occurrence in `a`, the character `c` does not occur in `a + [c] + b` either. */
  lemma CharNotBefore(a: string, c: char, b: string, i: nat)
    requires i <= |a| && forall j :: 0 <= j < i ==> !OccursAt(a, [c], j)
    ensures forall j :: 0 <= j < i ==> !OccursAt(a[..i] + [c] + b, [c], j)
  {
    forall j | 0 <= j < i
      ensures !OccursAt(a[..i] + [c] + b, [c], j)
    {
      assert !OccursAt(a, [c], j);
      assert a[j + 0] != [c][0];
      assert (a[..i] + [c] + b)[j + 0] == a[j];
    }
  }

  /** Splitting on a character is compatible with putting that character between
      two strings: the pieces of `a + [c] + b` are those of `a`, then those of `b`. */
  lemma {:induction false} SplitCharAppend(a: string, c: char, b: string)
    ensures Split(a + [c] + b, [c]) == Split(a, [c]) + Split(b, [c])
    decreases |a|
  {
    match FindFrom(a, [c], 0)
    case None =>
      SplitCharAppendFree(a, c, b);
    case Some(i) =>
      var x, y := a[..i], a[i + 1..];
      SplitCharAppendStep(a, c, b, i);
      SplitCharAppend(y, c, b);
      AppendAssoc([x], Split(y, [c]), Split(b, [c]));
  }

  /** Concatenation is associative. */
  lemma AppendAssoc<T>(x: seq<T>, y: seq<T>, z: seq<T>)
    ensures x + (y + z) == (x + y) + z
  {
  }

  /** When `a` has no `c`, the first piece of `a + [c] + b` is `a`. */
  lemma SplitCharAppendFree(a: string, c: char, b: string)
    requires FindFrom(a, [c], 0).None?
    ensures Split(a + [c] + b, [c]) == Split(a, [c]) + Split(b, [c])
  {
    assert a[..|a|] == a;
    CharNotBefore(a, c, b, |a|);
    SplitAtFirst(a, [c], b);
    assert !Contains(a, [c]);
    SplitWithout(a, [c]);
  }

  /** When the first `c` of `a` is at `i`, the first piece of `a + [c] + b` is `a[..i]`. */
  lemma SplitCharAppendStep(a: string, c: char, b: string, i: nat)
    requires FindFrom(a, [c], 0) == Some(i)
    ensures i < |a|
    ensures Split(a, [c]) == [a[..i]] + Split(a[i + 1..], [c])
    ensures Split(a + [c] + b, [c]) == [a[..i]] + Split(a[i + 1..] + [c] + b, [c])
  {
    SplitStep(a, c, i);
    var x, y := a[..i], a[i + 1..];
    assert a + [c] + b == x + [c] + (y + [c] + b);
    CharNotBefore(a, c, y + [c] + b, i);
    SplitAtFirst(x, [c], y + [c] + b);
  }

  /** `s.split(c)[-1]`: the text after the last `c`, or all of `s` when it has none. */
  function AfterLast(s: string, c: char): (e: string)
    ensures IsFinalSegment(s, e, c)
  {
    var parts := Split(s, [c]);
    SplitLastIsFinalSegment(s, c);
    parts[|parts| - 1]
  }

  /** The text after the last `c` of `stem + [c] + e`, for an `e` without `c`, is `e`. */
  lemma AfterLastOfSuffix(stem: string, c: char, e: string)
    requires c !in e
    ensures AfterLast(stem + [c] + e, c) == e
  {
    var s := stem + [c] + e;
    forall j | |s| - |e| <= j < |s|
      ensures s[j] != c
    {
      assert s[j] == e[j - |stem| - 1];
    }
    assert s[|s| - |e| - 1] == c;
    forall k | 0 <= k < |e|
      ensures e[k] == s[|s| - |e| + k]
    {
    }
    FinalSegmentUnique(s, AfterLast(s, c), e, c);
  }


  /** A character of `s` is an occurrence of the one-character string made of it. */
  lemma CharOccurs(s: string, c: char)
    ensures c in s <==> Contains(s, [c])
  {
    if c in s {
      var j :| 0 <= j < |s| && s[j] == c;
      assert OccursAt(s, [c], j);
    }
    if Contains(s, [c]) {
      var j :| 0 <= j <= |s| && OccursAt(s, [c], j);
      assert s[j + 0] == [c][0];
    }
  }

  /** Joining pieces that do not contain `c` with `c` and splitting on `c` gives the pieces back. */
  lemma {:induction false} SplitJoinChar(c: char, parts: seq<string>)
    requires |parts| >= 1
    requires forall i :: 0 <= i < |parts| ==> c !in parts[i]
    ensures Split(Join([c], parts), [c]) == parts
    decreases |parts|
  {
    if |parts| == 1 {
      CharOccurs(parts[0], c);
      SplitWithout(parts[0], [c]);
    } else {
      var a := parts[0];
      var b := Join([c], parts[1..]);
      SplitJoinChar(c, parts[1..]);
      forall j | 0 <= j < |a|
        ensures !OccursAt(a + [c] + b, [c], j)
      {
        assert (a + [c] + b)[j + 0] == a[j];
        assert a[j] != [c][0];
      }
      SplitAtFirst(a, [c], b);
      assert [a] + parts[1..] == parts;
    }
  }

  /** The character for a decimal digit. */
  function DigitChar(d: nat): (c: char)
    requires d < 10
    ensures '0' <= c <= '9'
  {
    (48 + d) as char
  }

  /** `str(n)`: the decimal digits of `n`, most significant first, without leading zeros. */
  function Decimal(n: nat): (r: string)
    ensures |r| >= 1
    ensures forall i :: 0 <= i < |r| ==> '0' <= r[i] <= '9'
    ensures n >= 10 ==> r[0] != '0'
    decreases n
  {
    if n < 10 then [DigitChar(n)] else Decimal(n / 10) + [DigitChar(n % 10)]
  }

  /** `int(s)` for a string of decimal digits. */
  function DecimalValue(s: string): nat
    requires forall i :: 0 <= i < |s| ==> '0' <= s[i] <= '9'
  {
    if s == [] then 0
    else DecimalValue(s[..|s| - 1]) * 10 + ((s[|s| - 1] as int) - 48)
  }

  /** Reading back the decimal rendering of `n` gives `n`. */
  lemma {:induction false} DecimalRoundTrip(n: nat)
    ensures DecimalValue(Decimal(n)) == n
    decreases n
  {
    if n >= 10 {
      DecimalRoundTrip(n / 10);
      var s := Decimal(n);
      assert s[..|s| - 1] == Decimal(n / 10);
    }
  }

  /** Distinct numbers have distinct decimal renderings. */
  lemma DecimalInjective(m: nat, n: nat)
    ensures Decimal(m) == Decimal(n) ==> m == n
  {
    DecimalRoundTrip(m);
    DecimalRoundTrip(n);
  }
}

=== FILE: text_ingestor.dfy ===
/** `TextIngestor.parse`: a `.txt` file, one quote per non-blank line. */
module TextIngestor {
  import opened Outcomes
  import opened IngestorInterface
  import opened QuoteModel
  import opened QuoteLines

  const AllowedExtensions: seq<string> := ["txt"]
  const WrongTypeMessage: string := "File extension is not of type txt"
  const ReadErrorPrefix: string := "Error reading text file: "

  /** Parses the lines the reader delivers for `path`. The extension is checked
      before anything is read; a line without the separator and a read failure
      both surface as a read error carrying the original message. */
  function Parse(path: string, file: LineStream): (r: Result<seq<Quote>>)
    ensures !CanIngest(path, AllowedExtensions) ==> r == Failure(WrongTypeMessage)
    ensures CanIngest(path, AllowedExtensions) && ReadQuotes(file).Failure? ==>
      r == Failure(ReadErrorPrefix + ReadQuotes(file).error)
    ensures CanIngest(path, AllowedExtensions) && ReadQuotes(file).Success? ==> r == ReadQuotes(file)
    ensures r.Success? ==> |r.value| == |ContentLines(file.lines)|
  {
    if !CanIngest(path, AllowedExtensions) then Failure(WrongTypeMessage)
    else
      match ReadQuotes(file)
      case Failure(e) => Failure(ReadErrorPrefix + e)
      case Success(qs) => Success(qs)
  }

  /** A non-blank line without the separator fails the parse, wherever it stands,
      whatever lines surround it and whatever read error comes later. */
  lemma MissingSeparatorFails(stem: string, before: seq<string>, line: string, after: seq<string>, failure: Option<string>)
    requires Trimmed(line) != [] && !Strings.Contains(Trimmed(line), Separator)
    ensures Parse(stem + "." + "txt", LineStream(before + [line] + after, failure))
      == Failure(ReadErrorPrefix + IndexErrorMessage)
  {
    AcceptsByExtension(stem, "txt", AllowedExtensions);
    MalformedLineFails(before, line, after, failure);
  }

  /** An empty or all-blank file gives no quotes and no error. */
  lemma BlankFile(stem: string, lines: seq<string>)
    requires forall i :: 0 <= i < |lines| ==> Trimmed(lines[i]) == []
    ensures Parse(stem + "." + "txt", LineStream(lines, None)) == Success([])
  {
    AcceptsByExtension(stem, "txt", AllowedExtensions);
    BlankLines(lines);
  }

  /** A file of printable quotes, one `str` per line, parses back into them. */
  lemma RoundTrip(stem: string, qs: seq<Quote>)
    requires forall i :: 0 <= i < |qs| ==> Printable(qs[i])
    ensures Parse(stem + "." + "txt", LineStream(QuoteFileLines(qs), None)) == Success(qs)
  {
    AcceptsByExtension(stem, "txt", AllowedExtensions);
    ReadBackQuotes(qs);
  }
}

=== FILE: words.dfy ===
/** Python's argument-less `str.split()`: the maximal runs of non-whitespace characters. */
module Words {
  import opened Strings

  /** A string without whitespace. */
  predicate NoSpace(s: string) {
    forall i :: 0 <= i < |s| ==> !IsSpace(s[i])
  }

  /** A word of `str.split()`: a non-empty string without whitespace. */
  predicate IsWord(w: string) {
    w != [] && NoSpace(w)
  }

  /** A word neither starts nor ends with whitespace. */
  lemma WordEnds(w: string)
    requires IsWord(w)
    ensures !IsSpace(w[0]) && !IsSpace(w[|w| - 1])
  {
  }

  /** The characters of `s` that are not whitespace, in order. */
  function NonSpace(s: string): string
  {
    if s == [] then []
    else (if IsSpace(s[0]) then [] else [s[0]]) + NonSpace(s[1..])
  }

  /** The concatenation of a sequence of sequences. */
  function Concat<T>(xs: seq<seq<T>>): seq<T>
  {
    if xs == [] then [] else xs[0] + Concat(xs[1..])
  }

  /** The word collected so far, if any. */
  function Emit(cur: string): seq<string>
  {
    if cur == [] then [] else [cur]
  }

  /** Scans `s` with the characters of the current, unfinished word in `cur`. */
  function WordsFrom(s: string, cur: string): seq<string>
    decreases |s|
  {
    if s == [] then Emit(cur)
    else if IsSpace(s[0]) then Emit(cur) + WordsFrom(s[1..], [])
    else WordsFrom(s[1..], cur + [s[0]])
  }

  /** `s.split()`: every piece is a word, and the pieces hold exactly the
      non-whitespace characters of `s`, in order. */
  function SplitWords(s: string): (ws: seq<string>)
    ensures forall i :: 0 <= i < |ws| ==> IsWord(ws[i])
    ensures Concat(ws) == NonSpace(s)
  {
    WordsFromSpec(s, []);
    WordsFrom(s, [])
  }

  /** The words of every string of `lines`, one after the other. */
  function AllWords(lines: seq<string>): seq<string>
  {
    if lines == [] then [] else SplitWords(lines[0]) + AllWords(lines[1..])
  }

  lemma {:induction false} ConcatAppend<T>(a: seq<seq<T>>, b: seq<seq<T>>)
    ensures Concat(a + b) == Concat(a) + Concat(b)
    decreases |a|
  {
    if a == [] {
      assert a + b == b;
    } else {
      assert (a + b)[0] == a[0];
      assert (a + b)[1..] == a[1..] + b;
      ConcatAppend(a[1..], b);
    }
  }

  /** The scan yields words that together hold the pending word followed by the
      non-whitespace characters of the rest. */
  lemma {:induction false} WordsFromSpec(s: string, cur: string)
    requires NoSpace(cur)
    ensures var ws := WordsFrom(s, cur);
      && (forall i :: 0 <= i < |ws| ==> IsWord(ws[i]))
      && Concat(ws) == cur + NonSpace(s)
    decreases |s|
  {
    if s == [] {
    } else if IsSpace(s[0]) {
      WordsFromSpec(s[1..], []);
      ConcatAppend(Emit(cur), WordsFrom(s[1..], []));
    } else {
      WordsFromSpec(s[1..], cur + [s[0]]);
    }
  }

  /** A whitespace character ends the pending word and starts a fresh scan. */
  lemma {:induction false} WordsFromSpaceJoin(a: string, c: char, b: string, cur: string)
    requires IsSpace(c)
    ensures WordsFrom(a + [c] + b, cur) == WordsFrom(a, cur) + SplitWords(b)
    decreases |a|
  {
    if a == [] {
      assert a + [c] + b == [c] + b;
      assert ([c] + b)[1..] == b;
    } else {
      assert (a + [c] + b)[0] == a[0];
      assert (a + [c] + b)[1..] == a[1..] + [c] + b;
      if IsSpace(a[0]) {
        WordsFromSpaceJoin(a[1..], c, b, []);
      } else {
        WordsFromSpaceJoin(a[1..], c, b, cur + [a[0]]);
      }
    }
  }

  /** Scanning a string without whitespace only extends the pending word. */
  lemma {:induction false} WordsFromNoSpace(w: string, cur: string)
    requires NoSpace(w)
    ensures WordsFrom(w, cur) == Emit(cur + w)
    decreases |w|
  {
    if w == [] {
      assert cur + w == cur;
    } else {
      WordsFromNoSpace(w[1..], cur + [w[0]]);
      assert cur + [w[0]] + w[1..] == cur + w;
    }
  }

  /** A word splits into itself alone. */
  lemma SplitWordsOfWord(w: string)
    requires IsWord(w)
    ensures SplitWords(w) == [w]
  {
    WordsFromNoSpace(w, []);
    assert [] + w == w;
  }

  /** `c.join(parts).split()` for a whitespace `c` is the words of the parts, in order. */
  lemma {:induction false} SplitWordsJoin(c: char, parts: seq<string>)
    requires IsSpace(c)
    ensures SplitWords(Join([c], parts)) == AllWords(parts)
    decreases |parts|
  {
    if |parts| == 1 {
      assert AllWords(parts[1..]) == [];
    } else if |parts| >= 2 {
      WordsFromSpaceJoin(parts[0], c, Join([c], parts[1..]), []);
      SplitWordsJoin(c, parts[1..]);
    }
  }

  /** Words joined with a whitespace character split back into the same words. */
  lemma {:induction false} SplitWordsJoinWords(c: char, ws: seq<string>)
    requires IsSpace(c)
    requires forall i :: 0 <= i < |ws| ==> IsWord(ws[i])
    ensures SplitWords(Join([c], ws)) == ws
  {
    SplitWordsJoin(c, ws);
    AllWordsOfWords(ws);
  }

  /** The words of a sequence of words are that sequence. */
  lemma {:induction false} AllWordsOfWords(ws: seq<string>)
    requires forall i :: 0 <= i < |ws| ==> IsWord(ws[i])
    ensures AllWords(ws) == ws
    decreases |ws|
  {
    if ws != [] {
      SplitWordsOfWord(ws[0]);
      AllWordsOfWords(ws[1..]);
    }
  }

  /** A string has no words exactly when it is all whitespace. */
  lemma SplitWordsEmpty(s: string)
    ensures SplitWords(s) == [] <==> forall i :: 0 <= i < |s| ==> IsSpace(s[i])
  {
    var ws := SplitWords(s);
    if ws != [] {
      assert IsWord(ws[0]);
      ConcatAppend([ws[0]], ws[1..]);
      assert ws == [ws[0]] + ws[1..];
    }
    NonSpaceEmpty(s);
  }

  /** No character survives the whitespace filter exactly when all are whitespace. */
  lemma {:induction false} NonSpaceEmpty(s: string)
    ensures NonSpace(s) == [] <==> forall i :: 0 <= i < |s| ==> IsSpace(s[i])
    decreases |s|
  {
    if s != [] {
      NonSpaceEmpty(s[1..]);
      if forall i :: 0 <= i < |s[1..]| ==> IsSpace(s[1..][i]) {
        if IsSpace(s[0]) {
          forall i | 0 <= i < |s|
            ensures IsSpace(s[i])
          {
            if i > 0 {
              assert s[i] == s[1..][i - 1];
            }
          }
        }
      }
    }
  }
}
